=== FILE: README.md ===
# random-objects, modelled in Dafny

`random-objects` generates arrays of random test data (numbers, picks from an
array, IDs, gradual values, custom-function values, word strings, and array
samples) and composes such columns into arrays of objects. This project models
its engine, `randomObjects.ts`, and proves properties of that model:

- **Options** (`options.dfy`): what each `populateOptions` fills in. A caller's
  options object is a `Request` in which any field may be missing. The
  populated options are a `Config`, with one `Params` variant per generator
  class. A missing `arrayOfItems` is an error result.
- **Draws** (`draws.dfy`): every `Math.floor(Math.random() * span)` is
  replaced by `Floor(raw, span)`, where `raw` is an arbitrary natural number
  from an oracle. `Floor` yields exactly the integers the JavaScript
  expression can yield, for spans of either sign. Attempt `t` of a run reads
  its draws from `tape(t, ·)`.
- **Producers** (`producers.dfy`): each class's `generateItem`. The IDs,
  strings and array-sample producers are methods with loops, each proved to
  return exactly what a function of its draws (`IDResult`, `StringResult`,
  `SampleResult`) returns. The numbers, from-array, gradual and
  custom-function producers are functions. `ItemResult` is what
  `generateItem` returns for one attempt's draws. `Producible` states which
  values each producer can yield at a position, and `ProducerSafe` states
  when it always returns.
- **Feasibility checks** (`feasibility.dfy`): each class's `uniqueErrorCheck`,
  and the `Checked` options that `generateArray` continues with.
- **Generation loop** (`generation.dfy`): `generateArray` and
  `logsAndCustomFunctions`. The proofs cover termination under a re-create
  limit and the exact length. They also cover the attempt-by-attempt account
  of a run (`Explains`):
  - the attempt that produced each stored item, and the rejection of every
    earlier attempt at its position;
  - admission by the full pipeline of every item stored before the limit
    was reached, each after fewer than `reCreateLimit` rejections;
  - exactly `reCreateLimit` consecutive rejections (at least one) at the
    position where `unique` and `customCompare` were dropped;
  - acceptance of every first attempt after that position;
  - distinctness while `unique` holds.
- **Composer** (`composer.dfy`): `randomObjects` and the `…Blueprint` entry
  points.
- **Scenarios** (`scenarios.dfy`): calls built on the repository's unit
  tests, proved for every sequence of draws. The gradual and keep-order
  from-array scenarios hold for every count and every `unique` and limit
  setting. `Scenarios.NumbersInRange`
  departs from its test: the test's options (tests/unit.test.ts:30-39) set
  `onlyIntegers: false` and five digits after the point, while the scenario
  uses integer mode, because the model does not compute fractional numbers.

Values are modelled by the datatype `Value`, which has `undefined`, `null`,
integers, strings, arrays and objects. The options object is passed and
returned as a value, not updated in place. `generateArray` returns the
options as it leaves them (`unique` and `customCompare` cleared after the
re-create limit, `allowDuplicates` set by the array check) inside its `Run`
result.

Some behaviours of the source are kept as written:
- The IDs defaults are a minimum length of 16 and a maximum of 8. With them,
  the producer yields IDs of 9 to 16 characters, and the IDs check rejects
  every unique array (`Feasibility.DefaultIDsRejectUnique`).
- The strings blueprint entry point populates in generator mode. Inside the
  composer this makes no difference (`Composer.BlueprintModeOverridden`).
- The custom-function generator defaults `showLogs` to true.
- Without repetitions allowed, the array sampler redraws until it finds a
  fresh item. When a sample must be longer than the number of distinct items,
  that loop never returns. This can happen when `unique` is off, because then
  the array check that would allow duplicates never runs. The model reports
  that case as the error `NeverReturns`.

## Model

| member | source | states |
|---|---|---|
| Values.Dedup | randomObjects.ts:1260 | `[...new Set(xs)]` contains exactly the values of `xs`, with no repetition, and is no longer than `xs` |
| Values.DedupKeepsFirstOrder | randomObjects.ts:1260 | `[...new Set(xs)]` lists the values in the order of their first occurrence in `xs` |
| Values.DedupOrderMatchesSource | randomObjects.ts:1260-1286 | two source values compare by `uniqueItems.indexOf` exactly as their first occurrences in the source compare |
| Values.IndexOf | randomObjects.ts:1286 | `indexOf` is -1 exactly when the value is absent; otherwise it is the first position holding the value |
| Values.Without | randomObjects.ts:1270-1277 | the items the sampler can still add are exactly the pool items not yet picked, and there are no repetitions among them |
| Values.DedupCountsDistinctValues | randomObjects.ts:487-490 | the length of the de-duplicated array is the number of distinct values |
| Values.DistinctPermutation | randomObjects.ts:1281-1288 | a rearrangement of a sequence without repetitions has no repetitions |
| Draws.Floor | randomObjects.ts:1253-1258 | a draw lies in the range `Math.floor(Math.random() * span)` can take: `[0, span)`, `0`, or `[span, 0]` |
| Draws.FloorIsOnto | randomObjects.ts:1253-1258 | every integer in that range is the value of some draw |
| Draws.InclusiveDrawBounds | randomObjects.ts:704-711 | a length drawn with `(max - min + 1)` lies in `[min, max]`, or in `[max + 1, min]` when `min > max` |
| Options.PopulateParams | randomObjects.ts:320-331 | the kind-specific options fail exactly when `arrayOfItems` is missing (randomObjects.ts:472-474, 1209-1211); the kind is kept, given fields are kept, and missing fields get the class defaults |
| Options.PopulateOptions | randomObjects.ts:299-335 | populating fails exactly when `arrayOfItems` is missing; given fields are kept; missing shared fields get their defaults (limit 2000, `unique` false, `showLogs` false except for custom functions, randomObjects.ts:933-935); generator mode always yields a count |
| Options.PopulateFixesComplete | randomObjects.ts:299-335 | populating options that already have every field returns them unchanged |
| Options.PopulateIdempotent | randomObjects.ts:299-335 | populating twice gives the same options as populating once |
| Options.IDsDefaultsAreInverted | randomObjects.ts:684-689 | the IDs defaults give a minimum length of 16, above the maximum of 8 |
| Tables.CharTable | randomObjects.ts:564-654 | every character table is non-empty |
| Sorting.SortByPosition | randomObjects.ts:1281-1288 | the keep-order sort returns a permutation of the sample, ordered by position in the de-duplicated source |
| Sorting.SortKeepsElements | randomObjects.ts:1281-1288 | the sort keeps the length and the elements, and keeps a sample free of repetitions |
| Sorting.SortedFollowsSource | randomObjects.ts:1281-1288 | over a source without repetitions, two different sorted items appear in strict source order |
| Producers.CustomItem | randomObjects.ts:945-948 | the custom-function producer calls the caller's function with the item's position, plus the draw standing for the randomness it uses inside; the source is a one-line delegation, so the contract is that delegation and no further property |
| Producers.NumbersItem | randomObjects.ts:366-379 | integer mode yields a number in the range of `starting + floor(r * (ending - starting))`, inside `[starting, ending)` when `starting < ending`; otherwise an abstract value of the fractional branch, which in the source may be an integer |
| Producers.FromArrayItem | randomObjects.ts:500-513 | keep-order mode yields `arrayOfItems[index % length]`; random mode yields an element of the source; an empty source yields `undefined` |
| Producers.GradualItem | randomObjects.ts:851-859 | the gradual producer yields a number, `starting` at position 0, and uses no draw |
| Producers.GradualStep | randomObjects.ts:851-859 | consecutive gradual values differ by exactly `incrementValue` |
| Producers.IDLength | randomObjects.ts:704-711 | the ID length lies in the range of the inclusive length draw |
| Producers.IDChars | randomObjects.ts:712-721 | the character loop yields exactly the requested number of characters, each from the table of one of the listed libraries |
| Producers.IDResult | randomObjects.ts:699-726 | an ID has the drawn length and only characters from the tables of the listed libraries; it throws exactly when `charLib` is empty and the length is positive |
| Producers.GenerateID | randomObjects.ts:699-726 | the IDs loop returns exactly `IDResult` of its draws |
| Producers.WordCount | randomObjects.ts:1106-1112 | the word count lies in the range of the inclusive count draw |
| Producers.StringWords | randomObjects.ts:1114-1128 | the word loop yields exactly the requested number of words, each from the list of one of the listed libraries |
| Producers.StringResult | randomObjects.ts:1102-1130 | a string is the drawn number of words from the listed libraries, joined with the separator placed only between words; it throws exactly when `lib` is empty and the count is positive |
| Producers.JoinSnoc | randomObjects.ts:1122-1126 | appending a word adds the separator and then the word, or just the word when there are no words yet |
| Producers.GenerateString | randomObjects.ts:1102-1130 | the strings loop, which appends each word and a separator after every word but the last, returns exactly `StringResult` of its draws |
| Producers.ResultLength | randomObjects.ts:1253-1258 | the sample length lies in the range of the `(max - min)` draw |
| Producers.MaxResultLength | randomObjects.ts:1253-1258 | the largest sample length the draw can yield: no draw exceeds it and some draw reaches it |
| Producers.Pool | randomObjects.ts:1260-1271 | the sampler draws from a non-empty pool without repetitions |
| Producers.Picks | randomObjects.ts:1264-1279 | the drawn number of pool items, without repetitions unless duplicates are allowed; no result exactly when a sample without duplicates must be longer than the pool |
| Producers.SampleResult | randomObjects.ts:1248-1291 | a sample has the drawn length (0 when negative) and holds only pool items; it has no repetitions unless duplicates are allowed, and is in source order under keep-order; it never returns exactly when a sample without duplicates must be longer than the pool |
| Producers.GenerateSample | randomObjects.ts:1248-1291 | the sampler returns exactly `SampleResult` of its draws |
| Producers.Pick | randomObjects.ts:1264-1279 | the drawing loop returns exactly `Picks` of its draws |
| Producers.FreshPick | randomObjects.ts:1273 | pushing an item not yet included keeps the sample free of repetitions and no longer than the pool |
| Producers.ItemResult | randomObjects.ts:116 | every item `generateItem` returns is producible; the call fails exactly on the failing draws (TypeError, or never returning for the sampler); safe options always yield an item |
| Producers.GenerateItem | randomObjects.ts:116 | `generateItem` returns exactly `ItemResult` of the attempt's draws |
| Producers.NumbersInRange | randomObjects.ts:373-379 | in integer mode the producible values are exactly the integers in `[starting, ending)` |
| Producers.KeepOrderCycles | randomObjects.ts:506-509 | in keep-order mode the only producible value is `arrayOfItems[index % length]` |
| Producers.IDLengthBounds | randomObjects.ts:704-711 | an ID has between `minIDLength` and `maxIDLength` characters, or between `maxIDLength + 1` and `minIDLength` when the bounds are inverted |
| Producers.WordCountBounds | randomObjects.ts:1106-1127 | a string joins between `minNumberOfWords` and `maxNumberOfWords` words from the listed libraries, or between `maxNumberOfWords + 1` and `minNumberOfWords` when the bounds are inverted |
| Producers.SampleLengthBound | randomObjects.ts:1253-1264 | a sample is no longer than the largest drawable length, and no shorter than `minLengthOfArray` when `min <= max` |
| Producers.SampleFollowsSource | randomObjects.ts:1260-1288 | in keep-order mode two different items of a sample appear in the order of their first occurrence in `arrayOfItems` |
| Feasibility.CharLibSize | randomObjects.ts:736-748 | the size the IDs check adds for a library equals the size of its table |
| Feasibility.WordLibSize | randomObjects.ts:1068-1084 | the size the strings check adds for a library equals the size of its word list |
| Feasibility.SumCharLibs | randomObjects.ts:731-751 | the loop adds one size per listed library, counting a repeated library every time |
| Feasibility.SumWordLibs | randomObjects.ts:1063-1086 | the loop adds one size per listed library, counting a repeated library every time |
| Feasibility.SumPowers | randomObjects.ts:752-759 | the loop sums `size^len` for every length in `[min, max]`, which is 0 when `min > max` |
| Feasibility.Checked | randomObjects.ts:106-108 | the check can only clear `unique`, and it changes nothing besides `unique` and the kind-specific options |
| Feasibility.UniqueErrorCheck | randomObjects.ts:338-364 | each class's check returns its feasibility verdict (the IDs and strings checks return only the verdict; the others return the verdict combined with `unique`); the array check sets `allowDuplicates` when a length bound exceeds the distinct items (randomObjects.ts:1230-1246) |
| Feasibility.NumbersCheckExact | randomObjects.ts:338-364 | in integer mode the producible values are the `ending - starting` integers of the range, and the check passes exactly when no more items than that are requested |
| Feasibility.FromArrayCheckExact | randomObjects.ts:484-498 | in random mode the producible values are the distinct items of the source, and the check passes exactly when no more items than that are requested |
| Feasibility.GradualCheckExact | randomObjects.ts:861-870 | the gradual producer repeats a value exactly when the increment is 0, and that is exactly when the check fails |
| Feasibility.ArrayCheckMakesSamplerSafe | randomObjects.ts:1230-1246 | after the array check the sampler always returns |
| Feasibility.DefaultIDsRejectUnique | randomObjects.ts:752-765 | with the default IDs options the check rejects every unique array, although the producer yields IDs of 9 to 16 characters |
| Generation.StoreAt | randomObjects.ts:239-241 | `items[index] = item` overwrites one slot, or grows the array and fills any gap with `undefined` |
| Generation.LogsAndCustomFunctions | randomObjects.ts:172-244 | the mapped item is accepted exactly when `customCompare` passes and, in unique mode, the item is not yet present; only then is it stored at `index` |
| Generation.AdmittedDistinct | randomObjects.ts:211-217 | items admitted one by one in unique mode are pairwise distinct |
| Generation.Relaxed | randomObjects.ts:125-130 | once `unique` and `customCompare` are dropped, the pipeline accepts every item |
| Generation.ExplainsProducible | randomObjects.ts:116-120 | every item of an explained run is the mapped image of a value producible at its position, and every item before the relaxation was admitted by the full pipeline |
| Generation.FailingAttempt | randomObjects.ts:116 | an attempt whose `generateItem` call fails drew a failing value |
| Generation.GenerateArray | randomObjects.ts:105-139 | with a re-create limit the loop ends; it returns exactly `numberOfItems` items unless the producer fails; a failed run drew a failing value on some attempt of its tape, and it cannot fail when the checked options are safe. The run is explained by the draws: item `i` is the mapped image of what the producer returned at the attempt recorded for it, and every earlier attempt at position `i` was rejected by the pipeline. Every item before the relaxation was admitted after fewer than `reCreateLimit` rejections. At the position where `unique` and `customCompare` were dropped, exactly `reCreateLimit` consecutive attempts (at least one) had been rejected. After it every first attempt was stored. The items are distinct if `unique` still holds |
| Composer.ExtractFunctionData | randomObjects.ts:246-253 | a blueprint entry point returns function data holding exactly the populated options (blueprint mode, generator mode for strings), or fails as populating does; so the kind is kept and only the strings options carry a count of their own (randomObjects.ts:1137-1140) |
| Composer.Override | randomObjects.ts:1353-1357 | a generator runs with the composer's count and `showLogs` and otherwise with its own options |
| Composer.BlueprintModeOverridden | randomObjects.ts:1137-1140 | inside the composer, populating the strings options in generator mode gives the same run options as blueprint mode |
| Composer.Throws | randomObjects.ts:1334-1353 | a static field throws a TypeError when it is `null` (`Object.keys(null)`) or an object with a `functionOptions` key that is not function data; only values whose `typeof` is `"object"` can throw |
| Composer.GenPositions | randomObjects.ts:1361 | `progressUpdate` is called for every generator field and for no static field, in key order |
| Composer.OpenBlueprint | randomObjects.ts:1331-1363 | every field is opened in key order: a static one as its item, and a generator as one column that its draws explain under its overridden options, as `GenerateArray` states; a runnable blueprint always opens; a throwing static field makes it fail; a failure comes from a throwing static field or from a generator whose tape holds a failing draw |
| Composer.BuildRows | randomObjects.ts:1365-1376 | object `index` lists every key in order, with the static item or element `index` of the key's column |
| Composer.RandomObjects | randomObjects.ts:1317-1379 | the composer returns `numberOfItems` objects, each holding every blueprint key in order with its static item or its column element; each generator runs once; it fails only on a `null` or function-data-like static field or on a generator whose tape holds a draw its producer fails on, and it always fails when a static field throws |
| Composer.StaticCopied | randomObjects.ts:1368-1372 | a static field is copied unchanged into every object |
| Composer.GeneratedColumnRead | randomObjects.ts:1368-1372 | a generator field holds element `index` of its one column in object `index`, and the column has one element per object |
| Scenarios.StaticObjects | tests/unit.test.ts:20-24 | `randomObjects({ key1: 5 }, 15)` gives fifteen objects `{ key1: 5 }` |
| Scenarios.NumbersRecreateLimit | tests/unit.test.ts:65-72 | a constant `customMap` in unique mode still yields fifteen items, all "55", and `unique` ends up cleared; the first attempt fills position 0, position 1 takes attempt 11 after ten rejections, and each later position takes the next attempt |
| Scenarios.NumbersInRange | tests/unit.test.ts:74-82 | the range test in integer mode: numbers between 5 and 25 stay in `[5, 25)`, and they are distinct while `unique` holds |
| Scenarios.GradualSteps | randomObjects.ts:851-859 | `gradualValue` with `n` items gives `starting + i * incrementValue` at every position `i`, whatever `unique` and the limit are (tests/unit.test.ts:424-431 is the case 5, 2, three items) |
| Scenarios.FromArrayKeepOrder | randomObjects.ts:506-509 | keep-order from-array with `n` items, `n` at most the source's length, gives the first `n` source items, whatever `unique` and the limit are (tests/unit.test.ts:168-176 is the case of four items) |
| Scenarios.IDsWithinLengths | tests/unit.test.ts:302-310 | IDs with lengths 5 to 20 have 5 to 20 characters from the chosen tables |
| Scenarios.NumbersDefaultCount | tests/unit.test.ts:52-54 | `randomNumbers()` with no options gives 100 items |

## Left out

- Console output (`showLogs`, `developerLog`, `showUniqueError`) has no effect on results. `showLogs` is only carried along in the options.
- The `progressUpdate` callbacks of a generator run only observe the run, and are not modelled. The composer's `progressUpdate(i)` calls are the `reported` positions.
- The probability distribution of `Math.random()` is not modelled. A draw is any integer the scaled and floored expression can yield.
- The fractional branch of the numbers producer (randomObjects.ts:381-395) uses floating-point arithmetic and string truncation. Its results are the abstract `NonInteger` values, one per draw. In the source such a number can be an integer (with `maximumDigitsAfterPoint: 0`, or when truncation keeps only zeros), and two draws can give the same number. The model therefore neither equates these values with integers nor with each other, so in unique mode it may count as distinct two fractional-branch items that the source would reject as duplicates.
- JavaScript numbers are doubles. The model uses unbounded integers, so the power sums of the IDs and strings checks never overflow to `Infinity`, and fractional option values are not represented.
- Length and count options of the IDs and strings generators are natural numbers. Negative or fractional lengths are not modelled.
- The word lists are imported tables (randomObjects.ts:1-4, the sources directory). They enter the model as a parameter with the sizes recorded at randomObjects.ts:1006-1009. The sources directory is not part of this model.
- The branches for an undefined `charLib` or `lib` in the IDs and strings checks (randomObjects.ts:733-734, 1065-1066) cannot be reached after populating, and are not modelled.
- Equality is structural. JavaScript `includes`, `Set` and `indexOf` compare arrays and objects by reference, so an array sample is never a duplicate in JavaScript, while the model compares samples by contents.
- Exceptions thrown by user callbacks (`customMap`, `customCompare`, `customFunction`) are not modelled. Callbacks are total functions.
- `customFunction` receives a draw besides the index, standing for any randomness it uses, so a retry at the same index can yield a new candidate. `customMap` and `customCompare` are deterministic functions of their arguments: a callback of those two that itself calls `Math.random` is not modelled.
- Generation.GenerateArray: a `reCreateLimit` of `null` is excluded, because then a run whose candidates are always rejected never returns.
- Composer.OpenBlueprint: a generator field whose options have `reCreateLimit: null` is excluded, for the same reason: that field's `generateArray` run may never return.
- Composer.RandomObjects: a generator field whose options have `reCreateLimit: null` is excluded, as for `Composer.OpenBlueprint`.
- Options are values. The in-place updates of the caller's options object by `populateOptions`, and of the options by `generateArray`, are not modelled, nor is the aliasing they cause. The updated options are returned instead.
- The array sampler's redraw of an already-picked item is modelled as one draw among the items not yet picked. This yields the same samples but not the same number of draws.
- Object keys are taken in blueprint order. JavaScript lists integer-like keys first; that ordering is not modelled.
- The TypeScript type plumbing (randomObjects.ts:6-96) and the export wiring (randomObjects.ts:1381-1407) are not modelled.

=== FILE: composer.dfy ===
/** The object composer `randomObjects`, and the `…Blueprint` entry points
    that hand it a generator's options. */
module Composer {
  import opened Values
  import opened Draws
  import opened Options
  import opened Tables
  import opened Producers
  import opened Feasibility
  import opened Generation

  /** A blueprint field: a value copied into every object, or the function
      data of a generator, whose options were populated by a `…Blueprint`
      entry point. */
  datatype Field = Static(item: Value) | Gen(functionOptions: Config)

  /** An entry of `openedBlueprint`: the static item, or the generated column. */
  datatype Opened = StaticItem(item: Value) | Column(items: seq<Value>)

  /** One generated object: its keys in blueprint order with their values. */
  type Row = seq<(string, Value)>

  function Keys(blueprint: seq<(string, Field)>): (ks: seq<string>)
    ensures |ks| == |blueprint|
    ensures forall k :: 0 <= k < |ks| ==> ks[k] == blueprint[k].0
  {
    if blueprint == [] then [] else Keys(blueprint[..|blueprint| - 1]) + [blueprint[|blueprint| - 1].0]
  }

  // ------------------------------------------------------------ blueprints

  /** `randomXBlueprint(options)`: populate the options and wrap them as
      function data. The strings entry point populates in generator mode, so
      its options carry a `numberOfItems`; every other one uses blueprint mode. */
  function ExtractFunctionData(req: Request): (r: Result<Field>)
    ensures r.Success? <==> PopulateOptions(Blueprint, req).Success?
    ensures r.Success? ==> r.value.Gen? && SameKind(req.kind, r.value.functionOptions.params)
    ensures r.Success? ==> (r.value.functionOptions.numberOfItems.Some? <==>
                            req.kind.StringsRequest? || req.numberOfItems.Some?)
    ensures r.Success? ==>
              r.value.functionOptions
              == PopulateOptions(if req.kind.StringsRequest? then Generator else Blueprint, req).value
  {
    var mode := if req.kind.StringsRequest? then Generator else Blueprint;
    match PopulateOptions(mode, req)
    case Success(c) => Success(Gen(c))
    case Failure(e) => Failure(e)
  }

  /** The options a generator field runs with: its own, with the composer's
      count and `showLogs` written over them. */
  function Override(c: Config, numberOfItems: int, showLogs: bool): (d: Config)
    ensures d.numberOfItems == Some(numberOfItems) && d.showLogs == showLogs
    ensures d.(numberOfItems := c.numberOfItems, showLogs := c.showLogs) == c
  {
    c.(numberOfItems := Some(numberOfItems), showLogs := showLogs)
  }

  /** Inside the composer the mode the strings entry point populates in makes
      no difference: the count it adds is overridden. */
  lemma BlueprintModeOverridden(req: Request, n: int, showLogs: bool)
    requires PopulateOptions(Blueprint, req).Success?
    ensures PopulateOptions(Generator, req).Success?
    ensures Override(PopulateOptions(Generator, req).value, n, showLogs)
         == Override(PopulateOptions(Blueprint, req).value, n, showLogs)
  {
  }

  // -------------------------------------------------------------- composer

  /** A static field the composer cannot open: `Object.keys(null)` throws, and
      an object with a `functionOptions` key is taken for function data whose
      missing `functionCall` cannot be called. */
  predicate Throws(v: Value): (t: bool)
    ensures t ==> v == Null || v.Object?
  {
    v == Null || (v.Object? && exists e :: e in v.entries && e.0 == "functionOptions")
  }

  /** The positions of the generator fields, in order: the arguments of the
      `progressUpdate` calls. */
  function GenPositions(blueprint: seq<(string, Field)>): (ps: seq<nat>)
    ensures forall k: nat :: k in ps <==> k < |blueprint| && blueprint[k].1.Gen?
    ensures forall a, b :: 0 <= a < b < |ps| ==> ps[a] < ps[b]
    ensures forall a :: 0 <= a < |ps| ==> ps[a] < |blueprint|
  {
    if blueprint == [] then []
    else
      var ps := GenPositions(blueprint[..|blueprint| - 1]);
      if blueprint[|blueprint| - 1].1.Gen? then ps + [|blueprint| - 1] else ps
  }

  /** `currentData.static ? currentData.item : currentData.items[index]` */
  function Cell(o: Opened, index: nat): Value {
    match o
    case StaticItem(item) => item
    case Column(items) => if index < |items| then items[index] else Undefined
  }

  /** A column the generator with options `c` can return from the draws
      `tape`: `numberOfItems` items, each the mapped image of a value the
      producer can yield there, and the whole column explained attempt by
      attempt as `generateArray` runs, re-create limit included. */
  ghost predicate ColumnOf(c: Config, words: WordTables, tape: Tape, items: seq<Value>) {
    && WellSized(words)
    && Checked(c).reCreateLimit.Limit?
    && |items| == Count(c.numberOfItems)
    && (forall i :: 0 <= i < |items| ==> Generable(c, words, i, items[i]))
    && exists raw, rows, strict :: Explains(Checked(c), words, tape, items, raw, rows, strict)
  }

  /** The mapped image of a value the producer of `c` can yield at position `i`. */
  ghost predicate Generable(c: Config, words: WordTables, i: nat, x: Value) {
    exists v :: Producible(Checked(c).params, i, words, v) && x == Mapped(c.customMap, v, i)
  }

  /** What `openedBlueprint` holds for a field once opened. */
  ghost predicate OpenedAs(f: Field, o: Opened, n: int, showLogs: bool, words: WordTables, tape: Tape) {
    match f
    case Static(v) => o == StaticItem(v)
    case Gen(c) => o.Column? && ColumnOf(Override(c, n, showLogs), words, tape, o.items)
  }

  /** `fields` is the opened blueprint: one entry per field, as `OpenedAs` says. */
  ghost predicate OpensAs(blueprint: seq<(string, Field)>, fields: seq<Opened>, n: int, showLogs: bool,
                          words: WordTables, tapes: nat -> Tape) {
    && |fields| == |blueprint|
    && forall k :: 0 <= k < |blueprint| ==> OpenedAs(blueprint[k].1, fields[k], n, showLogs, words, tapes(k))
  }

  /** Object `index` of `rows` lists every key in blueprint order with its
      static item or element `index` of its column. */
  predicate Laid(blueprint: seq<(string, Field)>, fields: seq<Opened>, rows: seq<Row>)
    requires |fields| == |blueprint|
  {
    forall index :: 0 <= index < |rows| ==>
      && |rows[index]| == |blueprint|
      && forall k :: 0 <= k < |blueprint| ==> rows[index][k] == (blueprint[k].0, Cell(fields[k], index))
  }

  /** Blueprints the composer completes whatever the draws: no static field
      throws and no generator's producer can fail. */
  predicate Runnable(blueprint: seq<(string, Field)>, n: int, showLogs: bool) {
    forall k :: 0 <= k < |blueprint| ==>
      match blueprint[k].1
      case Static(v) => !Throws(v)
      case Gen(c) => ProducerSafe(Checked(Override(c, n, showLogs)).params)
  }

  /** Some attempt on the tape of generator field `k` draws a failing value
      for that generator's checked options. */
  ghost predicate GenFails(blueprint: seq<(string, Field)>, k: nat, n: int, showLogs: bool, tapes: nat -> Tape)
    requires k < |blueprint|
  {
    && blueprint[k].1.Gen?
    && exists t: nat :: Fails(Checked(Override(blueprint[k].1.functionOptions, n, showLogs)).params, tapes(k)(t, 0))
  }

  /** Why opening a blueprint can fail: a static field throws, or a
      generator's producer fails on one of its attempts. */
  ghost predicate FailureCause(blueprint: seq<(string, Field)>, n: int, showLogs: bool, tapes: nat -> Tape) {
    || (exists k :: 0 <= k < |blueprint| && blueprint[k].1.Static? && Throws(blueprint[k].1.item))
    || (exists k :: 0 <= k < |blueprint| && GenFails(blueprint, k, n, showLogs, tapes))
  }

  /** The first loop of `randomObjects`: open every field in key order,
      running each generator once with the composer's count. Generator `k`
      draws from `tapes(k)`; `reported` lists the `progressUpdate` calls. */
  method OpenBlueprint(blueprint: seq<(string, Field)>, numberOfItems: int, showLogs: bool,
                       words: WordTables, tapes: nat -> Tape)
    returns (r: Result<seq<Opened>>, reported: seq<nat>)
    requires forall k :: 0 <= k < |blueprint| && blueprint[k].1.Gen? ==>
               blueprint[k].1.functionOptions.reCreateLimit.Limit?
    requires WellSized(words)
    ensures Runnable(blueprint, numberOfItems, showLogs) ==> r.Success?
    ensures r.Failure? ==> r.error == TypeError || r.error == NeverReturns
    ensures r.Failure? ==> FailureCause(blueprint, numberOfItems, showLogs, tapes)
    ensures r.Success? ==> reported == GenPositions(blueprint)
    ensures r.Success? ==> |r.value| == |blueprint|
    ensures r.Success? ==> forall k :: 0 <= k < |blueprint| ==>
              OpenedAs(blueprint[k].1, r.value[k], numberOfItems, showLogs, words, tapes(k))
    ensures (exists k :: 0 <= k < |blueprint| && blueprint[k].1.Static? && Throws(blueprint[k].1.item)) ==>
              r.Failure?
  {
    var openedBlueprint: seq<Opened> := [];
    reported := [];
    for i := 0 to |blueprint|
      invariant |openedBlueprint| == i
      invariant reported == GenPositions(blueprint[..i])
      invariant forall k :: 0 <= k < i ==>
                  OpenedAs(blueprint[k].1, openedBlueprint[k], numberOfItems, showLogs, words, tapes(k))
      invariant forall k :: 0 <= k < i && blueprint[k].1.Static? ==> !Throws(blueprint[k].1.item)
    {
      assert blueprint[..i + 1][..i] == blueprint[..i];
      match blueprint[i].1
      case Static(v) =>
        if Throws(v) {
          return Failure(TypeError), reported;
        }
        openedBlueprint := openedBlueprint + [StaticItem(v)];
      case Gen(options) =>
        var run;
        ghost var raw: seq<Value>;
        ghost var rows: seq<nat>;
        ghost var strict: nat;
        var c := Override(options, numberOfItems, showLogs);
        run, raw, rows, strict := GenerateArray(c, words, tapes(i));
        if run.Failed? {
          assert GenFails(blueprint, i, numberOfItems, showLogs, tapes);
          return Failure(run.error), reported;
        }
        assert |run.items| == Count(c.numberOfItems);
        forall j | 0 <= j < |run.items|
            ensures Generable(c, words, j, run.items[j])
          {
            assert j < |raw|;
            assert Producible(Checked(c).params, j, words, raw[j]) && run.items[j] == Mapped(c.customMap, raw[j], j);
          }
        assert Explains(Checked(c), words, tapes(i), run.items, raw, rows, strict);
        assert ColumnOf(c, words, tapes(i), run.items);
        openedBlueprint := openedBlueprint + [Column(run.items)];
        reported := reported + [i];
    }
    assert blueprint[..|blueprint|] == blueprint;
    r := Success(openedBlueprint);
  }

  /** The second loop of `randomObjects`: object `index` lists every key with
      its static item or element `index` of its column. */
  method BuildRows(keys: seq<string>, openedBlueprint: seq<Opened>, numberOfItems: int)
    returns (resultArray: seq<Row>)
    requires |keys| == |openedBlueprint|
    ensures |resultArray| == Count(Some(numberOfItems))
    ensures forall index :: 0 <= index < |resultArray| ==>
              && |resultArray[index]| == |keys|
              && forall k :: 0 <= k < |keys| ==>
                   resultArray[index][k] == (keys[k], Cell(openedBlueprint[k], index))
  {
    resultArray := [];
    for index := 0 to Count(Some(numberOfItems))
      invariant |resultArray| == index
      invariant forall x :: 0 <= x < index ==>
                  && |resultArray[x]| == |keys|
                  && forall k :: 0 <= k < |keys| ==>
                       resultArray[x][k] == (keys[k], Cell(openedBlueprint[k], x))
    {
      var currentObject: Row := [];
      for i := 0 to |keys|
        invariant |currentObject| == i
        invariant forall k :: 0 <= k < i ==>
                    currentObject[k] == (keys[k], Cell(openedBlueprint[k], index))
      {
        currentObject := currentObject + [(keys[i], Cell(openedBlueprint[i], index))];
      }
      resultArray := resultArray + [currentObject];
    }
  }

  /** `randomObjects(blueprint, numberOfItems, { showLogs, progressUpdate })`:
      open every field, then build `numberOfItems` objects, object `index`
      holding each key in blueprint order with its static item or element
      `index` of its column. `fields` is the opened blueprint. */
  method RandomObjects(blueprint: seq<(string, Field)>, numberOfItems: int, showLogs: bool,
                       words: WordTables, tapes: nat -> Tape)
    returns (r: Result<seq<Row>>, reported: seq<nat>, ghost fields: seq<Opened>)
    requires Distinct(Keys(blueprint))
    requires forall k :: 0 <= k < |blueprint| && blueprint[k].1.Gen? ==>
               blueprint[k].1.functionOptions.reCreateLimit.Limit?
    requires WellSized(words)
    ensures Runnable(blueprint, numberOfItems, showLogs) ==> r.Success?
    ensures r.Failure? ==> r.error == TypeError || r.error == NeverReturns
    ensures r.Failure? ==> FailureCause(blueprint, numberOfItems, showLogs, tapes)
    ensures r.Success? ==> reported == GenPositions(blueprint)
    ensures (exists k :: 0 <= k < |blueprint| && blueprint[k].1.Static? && Throws(blueprint[k].1.item)) ==>
              r.Failure?
    ensures r.Success? ==> OpensAs(blueprint, fields, numberOfItems, showLogs, words, tapes)
    ensures r.Success? ==> |r.value| == Count(Some(numberOfItems))
    ensures r.Success? ==> Laid(blueprint, fields, r.value)
  {
    var keys := Keys(blueprint);
    var openedBlueprint;
    openedBlueprint, reported := OpenBlueprint(blueprint, numberOfItems, showLogs, words, tapes);
    if openedBlueprint.Failure? {
      return Failure(openedBlueprint.error), reported, [];
    }
    var rows := BuildRows(keys, openedBlueprint.value, numberOfItems);
    r := Success(rows);
    fields := openedBlueprint.value;
  }

  /** A static field is copied unchanged into every object. */
  lemma StaticCopied(blueprint: seq<(string, Field)>, rows: seq<Row>, fields: seq<Opened>,
                     n: int, showLogs: bool, words: WordTables, tapes: nat -> Tape, index: nat, k: nat)
    requires OpensAs(blueprint, fields, n, showLogs, words, tapes)
    requires Laid(blueprint, fields, rows)
    requires index < |rows| && k < |blueprint| && blueprint[k].1.Static?
    ensures rows[index][k] == (blueprint[k].0, blueprint[k].1.item)
  {
    assert OpenedAs(blueprint[k].1, fields[k], n, showLogs, words, tapes(k));
  }

  /** A generator field holds, in object `index`, element `index` of its one
      column, which has exactly one element per object. */
  lemma GeneratedColumnRead(blueprint: seq<(string, Field)>, rows: seq<Row>, fields: seq<Opened>,
                            n: int, showLogs: bool, words: WordTables, tapes: nat -> Tape, index: nat, k: nat)
    requires OpensAs(blueprint, fields, n, showLogs, words, tapes)
    requires |rows| == Count(Some(n))
    requires Laid(blueprint, fields, rows)
    requires index < |rows| && k < |blueprint| && blueprint[k].1.Gen?
    ensures fields[k].Column? && |fields[k].items| == |rows|
    ensures rows[index][k] == (blueprint[k].0, fields[k].items[index])
  {
    assert OpenedAs(blueprint[k].1, fields[k], n, showLogs, words, tapes(k));
  }
}

=== FILE: draws.dfy ===
/** The random source. Every `Math.random()` in the engine is scaled and
    floored at once, `Math.floor(Math.random() * span)`; the model replaces the
    draw by an arbitrary natural number `raw` from an oracle and keeps exactly
    the set of integers that expression can yield. Nothing is said about the
    distribution. */
module Draws {

  /** The draws available to the producers: draw `j` of attempt `t` is `tape(t, j)`.
      Giving each call of a producer its own stream re-indexes the single global
      `Math.random` stream without restricting it. */
  type Tape = (nat, nat) -> nat

  /** The draws of attempt `t`. */
  function AttemptDraws(tape: Tape, t: nat): (rand: nat -> nat)
    ensures forall j: nat :: rand(j) == tape(t, j)
  {
    (j: nat) => tape(t, j)
  }

  /** The integers `Math.floor(r * span)` can take for `0 <= r < 1`. */
  predicate InFloorRange(k: int, span: int) {
    if span > 0 then 0 <= k < span
    else if span == 0 then k == 0
    else span <= k <= 0
  }

  /** `Math.floor(Math.random() * span)` for the draw `raw`. */
  function Floor(raw: nat, span: int): (k: int)
    ensures InFloorRange(k, span)
  {
    if span > 0 then raw % span
    else if span == 0 then 0
    else -(raw % (1 - span))
  }

  /** The oracle restricts nothing: every integer the JavaScript expression can
      yield is the value of some draw. */
  lemma FloorIsOnto(k: int, span: int)
    requires InFloorRange(k, span)
    ensures exists raw: nat :: Floor(raw, span) == k
  {
    if span > 0 {
      ModSmall(k, span);
      assert Floor(k, span) == k;
    } else if span == 0 {
      assert Floor(0, span) == k;
    } else {
      ModSmall(-k, 1 - span);
      assert Floor(-k, span) == k;
    }
  }

  lemma ModSmall(a: int, b: int)
    requires 0 <= a < b
    ensures a % b == a
  {
  }

  /** `Math.floor(Math.random() * (hi - lo + 1) + lo)` with integer bounds lies
      in `[lo, hi]` when `lo <= hi`, and in `[hi + 1, lo]` otherwise. */
  lemma InclusiveDrawBounds(lo: int, hi: int, len: int)
    requires InFloorRange(len - lo, hi - lo + 1)
    ensures lo <= hi ==> lo <= len <= hi
    ensures hi < lo ==> hi + 1 <= len <= lo
  {
  }
}

=== FILE: feasibility.dfy ===
/** The `uniqueErrorCheck` of each generator class: before generating a unique
    array, it judges whether enough distinct values exist, and the array
    generator instead relaxes its own duplicates option. */
module Feasibility {
  import opened Values
  import opened Draws
  import opened Options
  import opened Tables
  import opened Producers

  /** `numberOfItems < x` in JavaScript: false when `numberOfItems` is absent. */
  predicate Below(x: int, n: Option<int>) {
    n.Some? && x < n.value
  }

  /** `numberOfItems <= x` in JavaScript: false when `numberOfItems` is absent. */
  predicate AtMost(n: Option<int>, x: int) {
    n.Some? && n.value <= x
  }

  // ----------------------------------------------------- library sizes

  /** The size the IDs check adds for one listed library. */
  function CharLibSize(lib: CharLib): (size: nat)
    ensures size == |CharTable(lib)|
  {
    match lib
    case Number => 10
    case Letter => 52
    case Symbol => 32
  }

  /** The size the strings check adds for one listed library. */
  function WordLibSize(lib: WordLib): (size: nat)
    ensures forall t :: WellSized(t) ==> size == |WordTable(t, lib)|
  {
    match lib
    case Name => 6779
    case Adjective => 1314
    case Country => 193
    case Noun => 1000
  }

  /** `maxArrLength` of the IDs check: the sizes of the listed libraries, a
      library listed twice counted twice. */
  function CharLibsSize(libs: seq<CharLib>): nat {
    if libs == [] then 0 else CharLibsSize(libs[..|libs| - 1]) + CharLibSize(libs[|libs| - 1])
  }

  /** `maxArrLength` of the strings check. */
  function WordLibsSize(libs: seq<WordLib>): nat {
    if libs == [] then 0 else WordLibsSize(libs[..|libs| - 1]) + WordLibSize(libs[|libs| - 1])
  }

  function Pow(b: nat, e: nat): nat {
    if e == 0 then 1 else b * Pow(b, e - 1)
  }

  /** `b^lo + … + b^hi`, zero when `hi < lo`: the number of sequences over `b`
      symbols whose length lies in `[lo, hi]`. */
  function PowerSum(b: nat, lo: nat, hi: int): nat
    decreases if hi < lo then 0 else hi - lo + 1
  {
    if hi < lo then 0 else PowerSum(b, lo, hi - 1) + Pow(b, hi)
  }

  // ------------------------------------------------------------- loops

  /** The `forEach` of the IDs check over `charLib`. */
  method SumCharLibs(libs: seq<CharLib>) returns (maxArrLength: nat)
    ensures maxArrLength == CharLibsSize(libs)
  {
    maxArrLength := 0;
    for k := 0 to |libs|
      invariant maxArrLength == CharLibsSize(libs[..k])
    {
      assert libs[..k + 1][..k] == libs[..k];
      maxArrLength := maxArrLength + CharLibSize(libs[k]);
    }
    assert libs[..|libs|] == libs;
  }

  /** The `forEach` of the strings check over `lib`. */
  method SumWordLibs(libs: seq<WordLib>) returns (maxArrLength: nat)
    ensures maxArrLength == WordLibsSize(libs)
  {
    maxArrLength := 0;
    for k := 0 to |libs|
      invariant maxArrLength == WordLibsSize(libs[..k])
    {
      assert libs[..k + 1][..k] == libs[..k];
      maxArrLength := maxArrLength + WordLibSize(libs[k]);
    }
    assert libs[..|libs|] == libs;
  }

  /** The `maxUniquePossibility` loop shared by the IDs and strings checks:
      `for (i = lo; i < hi + 1; i++) sum += Math.pow(b, i)`. */
  method SumPowers(b: nat, lo: nat, hi: nat) returns (maxUniquePossibility: nat)
    ensures maxUniquePossibility == PowerSum(b, lo, hi)
  {
    maxUniquePossibility := 0;
    var i := lo;
    while i < hi + 1
      invariant lo <= i && (i <= hi + 1 || i == lo)
      invariant maxUniquePossibility == PowerSum(b, lo, i - 1)
    {
      maxUniquePossibility := maxUniquePossibility + Pow(b, i);
      i := i + 1;
    }
  }

  // ------------------------------------------------------------ verdicts

  /** `maximumNumberOfItems` of the numbers check: the width of the range,
      scaled by `10^maximumDigitsAfterPoint` outside integer mode, with a
      width of zero read as one. */
  function NumbersSpace(p: Params): int
    requires p.NumbersParams?
  {
    var width := (p.ending - p.starting) * (if p.onlyIntegers then 1 else Pow(10, p.maximumDigitsAfterPoint));
    if width == 0 then 1 else width
  }

  /** Whether the check of the options' class lets a unique array proceed. */
  function Feasible(c: Config): bool {
    match c.params
    case NumbersParams(_, _, _, _) => !Below(NumbersSpace(c.params), c.numberOfItems)
    case FromArrayParams(arr, _) => !Below(|Dedup(arr)|, c.numberOfItems)
    case IDsParams(lo, hi, charLib) => AtMost(c.numberOfItems, PowerSum(CharLibsSize(charLib), lo, hi))
    case GradualParams(_, inc) => inc != 0
    case CustomParams(_) => true
    case StringsParams(lo, hi, _, lib) => AtMost(c.numberOfItems, PowerSum(WordLibsSize(lib), lo, hi))
    case ArrayParams(_, _, _, _, _) => true
  }

  /** The kind-specific options after the check: the array check allows
      duplicates when the requested lengths exceed the distinct items. */
  function CheckedParams(p: Params): Params {
    if p.ArrayParams? && !p.allowDuplicates
       && (p.maxLengthOfArray > |Dedup(p.arrayOfItems)| || p.minLengthOfArray > |Dedup(p.arrayOfItems)|)
    then p.(allowDuplicates := true)
    else p
  }

  /** The options after the first step of `generateArray`, which runs the
      check only for a unique array and stores its verdict in `unique`. */
  function Checked(c: Config): (d: Config)
    ensures d.unique ==> c.unique
    ensures d == c.(unique := d.unique, params := d.params)
  {
    if c.unique then c.(unique := Feasible(c), params := CheckedParams(c.params)) else c
  }

  /** `uniqueErrorCheck(options)` of the class the options belong to: the
      verdict it returns and the kind-specific options it leaves. The IDs and
      strings checks answer with their verdict alone; the others fall back on
      `unique` when they find nothing wrong. */
  method UniqueErrorCheck(c: Config) returns (unique: bool, params: Params)
    ensures c.params.IDsParams? || c.params.StringsParams? ==> unique == Feasible(c)
    ensures !(c.params.IDsParams? || c.params.StringsParams?) ==> unique == (c.unique && Feasible(c))
    ensures params == CheckedParams(c.params)
  {
    params := c.params;
    match c.params
    case NumbersParams(_, _, _, _) =>
      var maximumNumberOfItems := NumbersSpace(c.params);
      unique := if Below(maximumNumberOfItems, c.numberOfItems) then false else c.unique;
    case FromArrayParams(arr, _) =>
      var maximumNumberOfItems := |Dedup(arr)|;
      unique := if Below(maximumNumberOfItems, c.numberOfItems) then false else c.unique;
    case IDsParams(lo, hi, charLib) =>
      var maxArrLength := SumCharLibs(charLib);
      var maxUniquePossibility := SumPowers(maxArrLength, lo, hi);
      unique := AtMost(c.numberOfItems, maxUniquePossibility);
    case GradualParams(_, inc) =>
      unique := if inc == 0 then false else c.unique;
    case CustomParams(_) =>
      unique := c.unique;
    case StringsParams(lo, hi, _, lib) =>
      var maxArrLength := SumWordLibs(lib);
      var maxUniquePossibility := SumPowers(maxArrLength, lo, hi);
      unique := AtMost(c.numberOfItems, maxUniquePossibility);
    case ArrayParams(arr, lo, hi, _, allowDuplicates) =>
      if !allowDuplicates {
        var uniqueItemsCount := |Dedup(arr)|;
        if hi > uniqueItemsCount || lo > uniqueItemsCount {
          params := params.(allowDuplicates := true);
        }
      }
      unique := c.unique;
  }

  // ---------------------------------------------------------- properties

  /** The integers in `[s, e)`. */
  ghost function NumRange(s: int, e: int): set<Value> {
    set k | s <= k < e :: Num(k)
  }

  lemma {:induction false} NumRangeCard(s: int, e: int)
    requires s <= e
    ensures |NumRange(s, e)| == e - s
    decreases e - s
  {
    if s < e {
      NumRangeCard(s, e - 1);
      assert NumRange(s, e) == NumRange(s, e - 1) + {Num(e - 1)};
      assert Num(e - 1) !in NumRange(s, e - 1);
    } else {
      assert NumRange(s, e) == {};
    }
  }

  /** In integer mode the numbers check is exact: the values the producer can
      yield are the `ending - starting` integers of the range, and the check
      lets the array proceed exactly when it asks for no more than that. */
  lemma NumbersCheckExact(c: Config, index: nat, words: WordTables)
    requires c.params.NumbersParams? && c.params.onlyIntegers
    requires c.params.starting < c.params.ending && c.numberOfItems.Some?
    ensures forall v :: Producible(c.params, index, words, v) <==> v in NumRange(c.params.starting, c.params.ending)
    ensures |NumRange(c.params.starting, c.params.ending)| == c.params.ending - c.params.starting
    ensures Feasible(c) <==> c.numberOfItems.value <= |NumRange(c.params.starting, c.params.ending)|
  {
    var s, e := c.params.starting, c.params.ending;
    forall v ensures Producible(c.params, index, words, v) <==> v in NumRange(s, e) {
      if v in NumRange(s, e) {
        var k :| s <= k < e && v == Num(k);
      }
    }
    NumRangeCard(s, e);
  }

  /** The from-array check is exact in random mode: the values the producer
      can yield are the distinct items of the source, and the check lets the
      array proceed exactly when it asks for no more than their number. */
  lemma FromArrayCheckExact(c: Config, index: nat, words: WordTables)
    requires c.params.FromArrayParams? && !c.params.keepOrder
    requires |c.params.arrayOfItems| > 0 && c.numberOfItems.Some?
    ensures forall v :: Producible(c.params, index, words, v) <==> v in Elements(c.params.arrayOfItems)
    ensures Feasible(c) <==> c.numberOfItems.value <= |Elements(c.params.arrayOfItems)|
  {
    DedupCountsDistinctValues(c.params.arrayOfItems);
  }

  /** The gradual producer repeats a value exactly when the increment is zero,
      which is the one case its check rejects. */
  lemma GradualCheckExact(p: Params, i: nat, j: nat)
    requires p.GradualParams?
    ensures GradualItem(p, i) == GradualItem(p, j) <==> i == j || p.incrementValue == 0
    ensures Feasible(Config(None, true, NoLimit, false, None, None, p)) <==> p.incrementValue != 0
  {
    if GradualItem(p, i) == GradualItem(p, j) && i != j {
      assert (i - j) * p.incrementValue == 0;
    }
  }

  /** After the array check the sampler always returns: either duplicates are
      allowed, or no drawn length exceeds the distinct items. */
  lemma ArrayCheckMakesSamplerSafe(p: Params)
    requires p.ArrayParams?
    ensures ProducerSafe(CheckedParams(p))
  {
    var q := CheckedParams(p);
    if !q.allowDuplicates {
      assert |Dedup(p.arrayOfItems)| <= |Pool(q)|;
    }
  }

  /** A sum over an inverted length range is empty, so with the default IDs
      lengths (minimum 16, maximum 8) the check rejects every unique array of
      at least one item, although the producer yields IDs of 9 to 16
      characters. */
  lemma DefaultIDsRejectUnique(c: Config)
    requires c.params == IDsParams(16, 8, [Letter, Number, Number])
    requires c.numberOfItems.Some? && c.numberOfItems.value >= 1
    ensures !Feasible(c)
    ensures CharLibsSize(c.params.charLib) == 72
    ensures forall raw: nat :: 9 <= IDLength(c.params, raw) <= 16
  {
    var libs := [Letter, Number, Number];
    assert libs[..2][..1] == [Letter] && libs[..2] == [Letter, Number];
    assert CharLibsSize([Letter]) == 52;
    forall raw: nat ensures 9 <= IDLength(c.params, raw) <= 16 {
      InclusiveDrawBounds(16, 8, IDLength(c.params, raw));
    }
  }
}

=== FILE: generation.dfy ===
/** The generation loop shared by every generator class: `generateArray` and
    its per-item pipeline `logsAndCustomFunctions`. */
module Generation {
  import opened Values
  import opened Draws
  import opened Options
  import opened Tables
  import opened Producers
  import opened Feasibility

  /** How `generateArray` ends: with the items and the options as the loop
      left them, or with an exception from the producer or a producer call
      that never returns. */
  datatype Run = Finished(items: seq<Value>, options: Config) | Failed(error: Error)

  /** `for (index = 0; index < numberOfItems; …)` runs this many positions;
      an absent count compares false and gives none. */
  function Count(n: Option<int>): nat {
    if n.Some? && n.value > 0 then n.value else 0
  }

  /** The item after the optional `customMap`. */
  function Mapped(customMap: Option<MapFn>, item: Value, index: nat): Value {
    if customMap.Some? then customMap.value(item, index) else item
  }

  /** The verdict of the optional `customCompare`; an absent one passes. */
  function Passes(customCompare: Option<CompareFn>, item: Value, items: seq<Value>, index: nat): bool {
    customCompare.None? || customCompare.value(item, items, index)
  }

  /** `items[index] = item` on a JavaScript array: an existing slot is
      overwritten; past the end the array grows and the gap holds `undefined`. */
  function StoreAt(items: seq<Value>, index: nat, item: Value): (r: seq<Value>)
    ensures |r| == if index < |items| then |items| else index + 1
    ensures r[index] == item
    ensures forall k :: 0 <= k < |items| && k != index ==> r[k] == items[k]
    ensures forall k :: |items| <= k < index ==> r[k] == Undefined
  {
    if index < |items| then items[index := item]
    else items + seq(index - |items|, _ => Undefined) + [item]
  }

  /** The verdict of the pipeline of the options `c` on the mapped item `x`
      at position `index`: `customCompare` passes it and, in unique mode, it
      is not already among `items`. */
  predicate Accepts(c: Config, x: Value, items: seq<Value>, index: nat) {
    Passes(c.customCompare, x, items, index) && !(c.unique && x in items)
  }

  /** The pipeline run on a produced item: map it, ask `customCompare`, reject
      it when `unique` holds and it is already among the items, and store it
      when nothing rejected it. Returns the verdict and the items afterwards. */
  method LogsAndCustomFunctions(item: Value, index: nat, items: seq<Value>, options: Config)
    returns (compareResult: bool, stored: seq<Value>)
    ensures compareResult <==> Accepts(options, Mapped(options.customMap, item, index), items, index)
    ensures compareResult ==> stored == StoreAt(items, index, Mapped(options.customMap, item, index))
    ensures !compareResult ==> stored == items
  {
    compareResult := true;
    var mapped := item;
    if options.customMap.Some? {
      mapped := options.customMap.value(mapped, index);
    }
    if options.customCompare.Some? {
      compareResult := options.customCompare.value(mapped, items, index);
    }
    if options.unique {
      if mapped in items {
        compareResult := false;
      }
    }
    stored := items;
    if compareResult {
      stored := StoreAt(stored, index, mapped);
    }
  }

  /** Item `i` was accepted by the full pipeline of the options `c` against
      the items before it. */
  ghost predicate Admitted(c: Config, items: seq<Value>, i: nat)
    requires i < |items|
  {
    Accepts(c, items[i], items[..i], i)
  }

  /** In unique mode, items that were each admitted are pairwise distinct. */
  lemma AdmittedDistinct(c: Config, items: seq<Value>)
    requires c.unique
    requires forall i :: 0 <= i < |items| ==> Admitted(c, items, i)
    ensures Distinct(items)
  {
    forall i, j | 0 <= i < j < |items| ensures items[i] != items[j] {
      assert Admitted(c, items, j);
      assert items[i] == items[..j][i];
    }
  }

  /** The options once the re-create limit is reached: `unique` is off and
      `customCompare` is gone, so every item is accepted. */
  function Relaxed(c: Config): (d: Config)
    ensures forall x, items, index :: Accepts(d, x, items, index)
  {
    c.(unique := false, customCompare := None)
  }

  /** How many consecutive rejections at one position make
      `recreateCount >= reCreateLimit` true: the limit itself, and a single
      one when the limit is below 1. */
  function Rejections(limit: int): (k: nat)
    ensures 1 <= k && limit <= k
    ensures k == 1 || k == limit
  {
    if limit < 1 then 1 else limit
  }

  /** Attempt `t` at position `index` produced an item that the pipeline of
      the options `c` rejected against `items`. */
  ghost predicate RejectedAt(c: Config, words: WordTables, tape: Tape, t: nat, items: seq<Value>, index: nat)
    requires WellSized(words)
  {
    var r := ItemResult(c.params, index, words, AttemptDraws(tape, t));
    r.Success? && !Accepts(c, Mapped(c.customMap, r.value, index), items, index)
  }

  /** The first attempt made for position `i`: the one after the attempt
      whose item was stored at position `i - 1`. */
  function FirstAttempt(rows: seq<nat>, i: nat): nat
    requires i <= |rows|
  {
    if i == 0 then 0 else rows[i - 1] + 1
  }

  /** How position `i` of a run of the checked options `c` came about:
      attempt `rows[i]` produced `raw[i]`, which maps to `items[i]`; every
      attempt for that position before it was rejected. Before position
      `strict` the item was admitted after fewer than `Rejections(limit)`
      rejections; at `strict` exactly that many rejections dropped `unique`
      and `customCompare`; after it every first attempt was stored. */
  ghost predicate PositionExplained(c: Config, words: WordTables, tape: Tape, items: seq<Value>,
                                    raw: seq<Value>, rows: seq<nat>, strict: nat, i: nat)
    requires WellSized(words) && c.reCreateLimit.Limit?
    requires |items| == |raw| == |rows| && i < |rows|
  {
    var first := FirstAttempt(rows, i);
    && ItemResult(c.params, i, words, AttemptDraws(tape, rows[i])) == Success(raw[i])
    && items[i] == Mapped(c.customMap, raw[i], i)
    && first <= rows[i]
    && (forall t: nat :: first <= t < rows[i] ==> RejectedAt(c, words, tape, t, items[..i], i))
    && (i < strict ==> Admitted(c, items, i) && rows[i] - first < Rejections(c.reCreateLimit.count))
    && (i == strict ==> rows[i] - first == Rejections(c.reCreateLimit.count))
    && (strict < i ==> rows[i] == first)
  }

  /** Every position of `items` is explained by the tape. */
  ghost predicate Explains(c: Config, words: WordTables, tape: Tape, items: seq<Value>,
                           raw: seq<Value>, rows: seq<nat>, strict: nat)
    requires WellSized(words) && c.reCreateLimit.Limit?
  {
    && |items| == |raw| == |rows|
    && strict <= |items|
    && forall i :: 0 <= i < |rows| ==> PositionExplained(c, words, tape, items, raw, rows, strict, i)
  }

  /** Storing one more item keeps the explanation of an earlier position. */
  lemma PositionStable(c: Config, words: WordTables, tape: Tape, items: seq<Value>, raw: seq<Value>,
                       rows: seq<nat>, strict: nat, strict': nat, i: nat, x: Value, y: Value, t: nat)
    requires WellSized(words) && c.reCreateLimit.Limit?
    requires |items| == |raw| == |rows| && i < |rows|
    requires PositionExplained(c, words, tape, items, raw, rows, strict, i)
    requires (i < strict <==> i < strict') && (i == strict <==> i == strict')
    ensures PositionExplained(c, words, tape, items + [x], raw + [y], rows + [t], strict', i)
  {
    assert (items + [x])[..i] == items[..i];
    assert FirstAttempt(rows + [t], i) == FirstAttempt(rows, i);
    if i < strict {
      assert Admitted(c, items, i);
    }
  }

  /** Storing an item whose position is explained extends the explanation. */
  lemma ExplainsSnoc(c: Config, words: WordTables, tape: Tape, items: seq<Value>, raw: seq<Value>,
                     rows: seq<nat>, strict: nat, strict': nat, x: Value, y: Value, t: nat)
    requires WellSized(words) && c.reCreateLimit.Limit?
    requires Explains(c, words, tape, items, raw, rows, strict)
    requires strict' == strict || strict' == strict + 1 == |items| + 1
    requires PositionExplained(c, words, tape, items + [x], raw + [y], rows + [t], strict', |items|)
    ensures Explains(c, words, tape, items + [x], raw + [y], rows + [t], strict')
  {
    forall i | 0 <= i < |rows|
      ensures PositionExplained(c, words, tape, items + [x], raw + [y], rows + [t], strict', i)
    {
      PositionStable(c, words, tape, items, raw, rows, strict, strict', i, x, y, t);
    }
  }

  /** The attempts made so far for the next position, `|rows|`, were all
      rejected against `items`. */
  ghost predicate Pending(c: Config, words: WordTables, tape: Tape, items: seq<Value>, rows: seq<nat>, attempt: nat)
    requires WellSized(words)
  {
    && FirstAttempt(rows, |rows|) <= attempt
    && forall t: nat :: FirstAttempt(rows, |rows|) <= t < attempt ==>
         RejectedAt(c, words, tape, t, items, |rows|)
  }

  /** A rejected attempt joins the pending ones. */
  lemma PendingRejected(c: Config, words: WordTables, tape: Tape, items: seq<Value>, rows: seq<nat>, attempt: nat)
    requires WellSized(words)
    requires Pending(c, words, tape, items, rows, attempt)
    requires RejectedAt(c, words, tape, attempt, items, |rows|)
    ensures Pending(c, words, tape, items, rows, attempt + 1)
  {
  }

  /** An attempt stored after the pending rejections extends the explanation:
      before `strict'` it was admitted within the limit, at `strict'` the limit
      was just reached, after it there were no rejections. */
  lemma ExplainsAccepted(c: Config, words: WordTables, tape: Tape, items: seq<Value>, raw: seq<Value>,
                         rows: seq<nat>, strict: nat, strict': nat, y: Value, t: nat)
    requires WellSized(words) && c.reCreateLimit.Limit?
    requires Explains(c, words, tape, items, raw, rows, strict)
    requires Pending(c, words, tape, items, rows, t)
    requires ItemResult(c.params, |items|, words, AttemptDraws(tape, t)) == Success(y)
    requires strict' == strict || strict' == strict + 1 == |items| + 1
    requires |items| < strict' ==>
               && Accepts(c, Mapped(c.customMap, y, |items|), items, |items|)
               && t - FirstAttempt(rows, |rows|) < Rejections(c.reCreateLimit.count)
    requires |items| == strict' ==> t - FirstAttempt(rows, |rows|) == Rejections(c.reCreateLimit.count)
    requires strict' < |items| ==> t == FirstAttempt(rows, |rows|)
    ensures Explains(c, words, tape, items + [Mapped(c.customMap, y, |items|)], raw + [y], rows + [t], strict')
  {
    var x := Mapped(c.customMap, y, |items|);
    var items', raw', rows' := items + [x], raw + [y], rows + [t];
    assert items'[..|items|] == items;
    assert FirstAttempt(rows', |items|) == FirstAttempt(rows, |rows|);
    assert PositionExplained(c, words, tape, items', raw', rows', strict', |items|);
    ExplainsSnoc(c, words, tape, items, raw, rows, strict, strict', x, y, t);
  }

  /** An explained item is one the producer can yield, mapped by `customMap`;
      the items before `strict` were admitted. */
  lemma ExplainsProducible(c: Config, words: WordTables, tape: Tape, items: seq<Value>,
                           raw: seq<Value>, rows: seq<nat>, strict: nat)
    requires WellSized(words) && c.reCreateLimit.Limit?
    requires Explains(c, words, tape, items, raw, rows, strict)
    ensures forall i :: 0 <= i < |raw| ==>
              Producible(c.params, i, words, raw[i]) && items[i] == Mapped(c.customMap, raw[i], i)
    ensures forall i :: 0 <= i < strict ==> Admitted(c, items, i)
  {
    forall i | 0 <= i < |raw|
      ensures Producible(c.params, i, words, raw[i]) && items[i] == Mapped(c.customMap, raw[i], i)
    {
      assert PositionExplained(c, words, tape, items, raw, rows, strict, i);
    }
    forall i | 0 <= i < strict ensures Admitted(c, items, i) {
      assert PositionExplained(c, words, tape, items, raw, rows, strict, i);
    }
  }

  /** An attempt whose item fails drew a failing value as its first draw. */
  lemma FailingAttempt(p: Params, index: nat, words: WordTables, tape: Tape, t: nat)
    requires WellSized(words)
    requires ItemResult(p, index, words, AttemptDraws(tape, t)).Failure?
    ensures Fails(p, tape(t, 0))
  {
  }

  /** `generateArray(options)`: produce, pipe and store items until
      `numberOfItems` are accepted. A rejected attempt retries the same
      position; after `reCreateLimit` consecutive rejections (at least one)
      `unique` and `customCompare` are dropped for the rest of the run, so the
      next attempt is accepted. Attempt `t` draws from `tape(t, ·)`. For each
      stored item, `rows` holds the attempt that produced it and `raw` the
      item before `customMap`; `strict` is the position at which the options
      were relaxed, or the count when they never were. */
  method GenerateArray(options: Config, words: WordTables, tape: Tape)
    returns (run: Run, ghost raw: seq<Value>, ghost rows: seq<nat>, ghost strict: nat)
    requires options.reCreateLimit.Limit?
    requires WellSized(words)
    ensures ProducerSafe(Checked(options).params) ==> run.Finished?
    ensures run.Failed? ==> run.error == (if Checked(options).params.ArrayParams? then NeverReturns else TypeError)
    ensures run.Failed? ==> exists t: nat :: Fails(Checked(options).params, tape(t, 0))
    ensures run.Finished? ==> |run.items| == Count(options.numberOfItems)
    ensures run.Finished? ==> Explains(Checked(options), words, tape, run.items, raw, rows, strict)
    ensures run.Finished? ==>
              forall i :: 0 <= i < |raw| ==>
                && Producible(Checked(options).params, i, words, raw[i])
                && run.items[i] == Mapped(options.customMap, raw[i], i)
    ensures run.Finished? ==>
              || (run.options == Checked(options) && strict == |run.items|)
              || (run.options == Relaxed(Checked(options)) && strict < |run.items|)
    ensures run.Finished? ==> forall i :: 0 <= i < strict ==> Admitted(Checked(options), run.items, i)
    ensures run.Finished? && run.options.unique ==> Distinct(run.items)
  {
    var opts := options;
    if opts.unique {
      var unique, params := UniqueErrorCheck(opts);
      opts := opts.(unique := unique, params := params);
    }
    ghost var start := opts;
    var limit := opts.reCreateLimit.count;
    var n := Count(opts.numberOfItems);
    var items: seq<Value> := [];
    var indexCounter := 0;
    var recreateCount := 0;
    var attempt := 0;
    var index := 0;
    raw, rows, strict := [], [], 0;
    ghost var relaxed := false;
    while index < n
      invariant index <= n
      invariant indexCounter == index && |items| == index
      invariant opts == if relaxed then Relaxed(start) else start
      invariant !relaxed ==> strict == index
      invariant relaxed ==> strict < index || (strict == index && index < n)
      invariant Explains(start, words, tape, items, raw, rows, strict)
      invariant Pending(start, words, tape, items, rows, attempt)
      invariant FirstAttempt(rows, index) + recreateCount == attempt
      invariant !relaxed ==> recreateCount < Rejections(limit)
      invariant relaxed && strict == index ==> recreateCount == Rejections(limit)
      invariant relaxed && strict < index ==> recreateCount == 0
      decreases n - index, (if opts.unique || opts.customCompare.Some? then 1 else 0),
                (if recreateCount < limit then limit - recreateCount else 0)
    {
      var item := GenerateItem(opts.params, index, words, AttemptDraws(tape, attempt));
      if item.Failure? {
        FailingAttempt(start.params, index, words, tape, attempt);
        run := Failed(item.error);
        return;
      }
      var compareResult, stored := LogsAndCustomFunctions(item.value, index, items, opts);
      if !compareResult && indexCounter == index {
        PendingRejected(start, words, tape, items, rows, attempt);
        recreateCount := recreateCount + 1;
        if recreateCount >= limit {
          opts := Relaxed(opts);
          relaxed := true;
        }
      } else {
        var mapped := Mapped(opts.customMap, item.value, index);
        assert stored == items + [mapped];
        ghost var strict' := if relaxed then strict else strict + 1;
        ExplainsAccepted(start, words, tape, items, raw, rows, strict, strict', item.value, attempt);
        recreateCount := 0;
        indexCounter := indexCounter + 1;
        items := stored;
        raw, rows, strict := raw + [item.value], rows + [attempt], strict';
        index := index + 1;
      }
      attempt := attempt + 1;
    }
    run := Finished(items, opts);
    ExplainsProducible(start, words, tape, items, raw, rows, strict);
    if opts.unique {
      AdmittedDistinct(start, items);
    }
  }
}

=== FILE: options.dfy ===
/** The options of a generator: what the caller passes (a `Request`, any field
    of which may be missing) and what `populateOptions` turns it into (a
    `Config`, every field present). */
module Options {
  import opened Values

  /** `customMap(item, index)` */
  type MapFn = (Value, nat) -> Value
  /** `customCompare(item, items, index)` */
  type CompareFn = (Value, seq<Value>, nat) -> bool
  /** `customFunction(index)`; the second argument is the draw the function
      may make inside, so a retry at the same index can yield a new value. */
  type CustomFn = (nat, nat) -> Value

  /** `reCreateLimit: number | null` */
  datatype Limit = NoLimit | Limit(count: int)

  /** The character libraries of the IDs generator. */
  datatype CharLib = Number | Letter | Symbol

  /** The word libraries of the strings generator. */
  datatype WordLib = Name | Adjective | Country | Noun

  /** The kind-specific options once populated, one variant per generator class. */
  datatype Params =
    | NumbersParams(starting: int, ending: int, onlyIntegers: bool, maximumDigitsAfterPoint: nat)
    | FromArrayParams(arrayOfItems: seq<Value>, keepOrder: bool)
    | IDsParams(minIDLength: nat, maxIDLength: nat, charLib: seq<CharLib>)
    | GradualParams(starting: int, incrementValue: int)
    | CustomParams(customFunction: CustomFn)
    | StringsParams(minNumberOfWords: nat, maxNumberOfWords: nat, separator: string, lib: seq<WordLib>)
    | ArrayParams(arrayOfItems: seq<Value>, minLengthOfArray: int, maxLengthOfArray: int,
                  keepOrder: bool, allowDuplicates: bool)

  /** Populated options. `numberOfItems` stays absent for a blueprint until
      the object composer supplies it. */
  datatype Config = Config(
    numberOfItems: Option<int>,
    unique: bool,
    reCreateLimit: Limit,
    showLogs: bool,
    customMap: Option<MapFn>,
    customCompare: Option<CompareFn>,
    params: Params)

  /** The kind-specific options as the caller gives them. */
  datatype KindRequest =
    | NumbersRequest(starting: Option<int>, ending: Option<int>, onlyIntegers: Option<bool>,
                     maximumDigitsAfterPoint: Option<nat>)
    | FromArrayRequest(arrayOfItems: Option<seq<Value>>, keepOrder: Option<bool>)
    | IDsRequest(minIDLength: Option<nat>, maxIDLength: Option<nat>, charLib: Option<seq<CharLib>>)
    | GradualRequest(starting: Option<int>, incrementValue: Option<int>)
    | CustomRequest(customFunction: CustomFn)
    | StringsRequest(minNumberOfWords: Option<nat>, maxNumberOfWords: Option<nat>,
                     separator: Option<string>, lib: Option<seq<WordLib>>)
    | ArrayRequest(arrayOfItems: Option<seq<Value>>, minLengthOfArray: Option<int>,
                   maxLengthOfArray: Option<int>, keepOrder: Option<bool>, allowDuplicates: Option<bool>)

  /** The options object as the caller gives it. */
  datatype Request = Request(
    numberOfItems: Option<int>,
    unique: Option<bool>,
    reCreateLimit: Option<Limit>,
    showLogs: Option<bool>,
    customMap: Option<MapFn>,
    customCompare: Option<CompareFn>,
    kind: KindRequest)

  /** `populateOptions("generator", …)` or `populateOptions("blueprint", …)`. */
  datatype Mode = Generator | Blueprint

  const DefaultNumberOfItems := 100
  const DefaultReCreateLimit := 2000

  /** `if (x === undefined) x = d` */
  function Or<T>(given: Option<T>, default: T): T {
    if given.Some? then given.value else default
  }

  /** The kind-specific half of `populateOptions`; only a missing
      `arrayOfItems` throws. */
  function PopulateParams(k: KindRequest): (r: Result<Params>)
    ensures r.Failure? <==> (k.FromArrayRequest? || k.ArrayRequest?) && k.arrayOfItems.None?
    ensures r.Success? ==> SameKind(k, r.value) && Keeps(k, r.value) && FillsDefaults(k, r.value)
  {
    match k
    case NumbersRequest(starting, ending, onlyIntegers, digits) =>
      Success(NumbersParams(Or(starting, 0), Or(ending, 100), Or(onlyIntegers, true), Or(digits, 5)))
    case FromArrayRequest(arrayOfItems, keepOrder) =>
      if arrayOfItems.None? then Failure(Thrown("Options parameter must have arrayOfItems property."))
      else Success(FromArrayParams(arrayOfItems.value, Or(keepOrder, false)))
    case IDsRequest(minIDLength, maxIDLength, charLib) =>
      Success(IDsParams(Or(minIDLength, 16), Or(maxIDLength, 8), Or(charLib, [Letter, Number, Number])))
    case GradualRequest(starting, incrementValue) =>
      Success(GradualParams(Or(starting, 0), Or(incrementValue, 1)))
    case CustomRequest(f) =>
      Success(CustomParams(f))
    case StringsRequest(minWords, maxWords, separator, lib) =>
      Success(StringsParams(Or(minWords, 2), Or(maxWords, 3), Or(separator, " "), Or(lib, [Name, Adjective])))
    case ArrayRequest(arrayOfItems, minLength, maxLength, keepOrder, allowDuplicates) =>
      if arrayOfItems.None? then Failure(Thrown("arrayOfItems property must be defined."))
      else
        Success(ArrayParams(arrayOfItems.value, Or(minLength, 1), Or(maxLength, |arrayOfItems.value| - 1),
                            Or(keepOrder, false), Or(allowDuplicates, false)))
  }

  /** `populateOptions(mode, options)`: every missing field gets its default;
      `numberOfItems` is defaulted only in generator mode. The custom-function
      generator is the one whose `showLogs` defaults to true. */
  function PopulateOptions(mode: Mode, req: Request): (r: Result<Config>)
    ensures r.Failure? <==> (req.kind.FromArrayRequest? || req.kind.ArrayRequest?) && req.kind.arrayOfItems.None?
    ensures r.Success? ==> SameKind(req.kind, r.value.params) && Keeps(req.kind, r.value.params)
    ensures r.Success? ==> KeepsShared(req, r.value) && FillsSharedDefaults(mode, req, r.value)
    ensures r.Success? ==> FillsDefaults(req.kind, r.value.params)
    ensures r.Success? && mode == Generator ==> r.value.numberOfItems.Some?
  {
    match PopulateParams(req.kind)
    case Failure(e) => Failure(e)
    case Success(params) =>
      Success(Config(
        if mode == Generator then Some(Or(req.numberOfItems, DefaultNumberOfItems)) else req.numberOfItems,
        Or(req.unique, false),
        Or(req.reCreateLimit, Limit(DefaultReCreateLimit)),
        Or(req.showLogs, req.kind.CustomRequest?),
        req.customMap,
        req.customCompare,
        params))
  }

  /** The populated options are of the kind that was requested. */
  predicate SameKind(k: KindRequest, p: Params) {
    match k
    case NumbersRequest(_, _, _, _) => p.NumbersParams?
    case FromArrayRequest(_, _) => p.FromArrayParams?
    case IDsRequest(_, _, _) => p.IDsParams?
    case GradualRequest(_, _) => p.GradualParams?
    case CustomRequest(_) => p.CustomParams?
    case StringsRequest(_, _, _, _) => p.StringsParams?
    case ArrayRequest(_, _, _, _, _) => p.ArrayParams?
  }

  /** A field the caller gave is never overwritten by a default. */
  ghost predicate Given<T>(o: Option<T>, v: T) {
    o.Some? ==> o.value == v
  }

  ghost predicate Keeps(k: KindRequest, p: Params) {
    match k
    case NumbersRequest(s, e, oi, d) =>
      p.NumbersParams? && Given(s, p.starting) && Given(e, p.ending) && Given(oi, p.onlyIntegers)
      && Given(d, p.maximumDigitsAfterPoint)
    case FromArrayRequest(a, ko) =>
      p.FromArrayParams? && Given(a, p.arrayOfItems) && Given(ko, p.keepOrder)
    case IDsRequest(lo, hi, cl) =>
      p.IDsParams? && Given(lo, p.minIDLength) && Given(hi, p.maxIDLength) && Given(cl, p.charLib)
    case GradualRequest(s, inc) =>
      p.GradualParams? && Given(s, p.starting) && Given(inc, p.incrementValue)
    case CustomRequest(f) =>
      p.CustomParams? && p.customFunction == f
    case StringsRequest(lo, hi, sep, lib) =>
      p.StringsParams? && Given(lo, p.minNumberOfWords) && Given(hi, p.maxNumberOfWords)
      && Given(sep, p.separator) && Given(lib, p.lib)
    case ArrayRequest(a, lo, hi, ko, ad) =>
      p.ArrayParams? && Given(a, p.arrayOfItems) && Given(lo, p.minLengthOfArray)
      && Given(hi, p.maxLengthOfArray) && Given(ko, p.keepOrder) && Given(ad, p.allowDuplicates)
  }

  /** A field the caller left out gets the default `d`. */
  ghost predicate Missing<T>(o: Option<T>, v: T, d: T) {
    o.None? ==> v == d
  }

  ghost predicate FillsDefaults(k: KindRequest, p: Params) {
    match k
    case NumbersRequest(s, e, oi, d) =>
      p.NumbersParams? && Missing(s, p.starting, 0) && Missing(e, p.ending, 100)
      && Missing(oi, p.onlyIntegers, true) && Missing(d, p.maximumDigitsAfterPoint, 5)
    case FromArrayRequest(a, ko) =>
      p.FromArrayParams? && Missing(ko, p.keepOrder, false)
    case IDsRequest(lo, hi, cl) =>
      p.IDsParams? && Missing(lo, p.minIDLength, 16) && Missing(hi, p.maxIDLength, 8)
      && Missing(cl, p.charLib, [Letter, Number, Number])
    case GradualRequest(s, inc) =>
      p.GradualParams? && Missing(s, p.starting, 0) && Missing(inc, p.incrementValue, 1)
    case CustomRequest(f) =>
      p.CustomParams?
    case StringsRequest(lo, hi, sep, lib) =>
      p.StringsParams? && Missing(lo, p.minNumberOfWords, 2) && Missing(hi, p.maxNumberOfWords, 3)
      && Missing(sep, p.separator, " ") && Missing(lib, p.lib, [Name, Adjective])
    case ArrayRequest(a, lo, hi, ko, ad) =>
      p.ArrayParams? && Missing(lo, p.minLengthOfArray, 1)
      && Missing(hi, p.maxLengthOfArray, |p.arrayOfItems| - 1)
      && Missing(ko, p.keepOrder, false) && Missing(ad, p.allowDuplicates, false)
  }

  ghost predicate FillsSharedDefaults(mode: Mode, req: Request, c: Config) {
    && (mode == Generator ==> c.numberOfItems == Some(Or(req.numberOfItems, DefaultNumberOfItems)))
    && (mode == Blueprint ==> c.numberOfItems == req.numberOfItems)
    && Missing(req.unique, c.unique, false)
    && Missing(req.reCreateLimit, c.reCreateLimit, Limit(DefaultReCreateLimit))
    && Missing(req.showLogs, c.showLogs, req.kind.CustomRequest?)
  }

  ghost predicate KeepsShared(req: Request, c: Config) {
    && (req.numberOfItems.Some? ==> c.numberOfItems == req.numberOfItems)
    && Given(req.unique, c.unique)
    && Given(req.reCreateLimit, c.reCreateLimit)
    && Given(req.showLogs, c.showLogs)
    && c.customMap == req.customMap
    && c.customCompare == req.customCompare
  }

  /** The request that spells out every field of populated options. */
  function AsRequest(c: Config): Request {
    Request(c.numberOfItems, Some(c.unique), Some(c.reCreateLimit), Some(c.showLogs),
            c.customMap, c.customCompare, AsKindRequest(c.params))
  }

  function AsKindRequest(p: Params): KindRequest {
    match p
    case NumbersParams(s, e, oi, d) => NumbersRequest(Some(s), Some(e), Some(oi), Some(d))
    case FromArrayParams(a, ko) => FromArrayRequest(Some(a), Some(ko))
    case IDsParams(lo, hi, cl) => IDsRequest(Some(lo), Some(hi), Some(cl))
    case GradualParams(s, inc) => GradualRequest(Some(s), Some(inc))
    case CustomParams(f) => CustomRequest(f)
    case StringsParams(lo, hi, sep, lib) => StringsRequest(Some(lo), Some(hi), Some(sep), Some(lib))
    case ArrayParams(a, lo, hi, ko, ad) => ArrayRequest(Some(a), Some(lo), Some(hi), Some(ko), Some(ad))
  }

  /** Populating options that already have every field changes nothing. */
  lemma PopulateFixesComplete(mode: Mode, c: Config)
    requires mode == Blueprint || c.numberOfItems.Some?
    ensures PopulateOptions(mode, AsRequest(c)) == Success(c)
  {
    ParamsFixComplete(c.params);
  }

  /** The kind-specific half: spelled-out options come back unchanged. */
  lemma ParamsFixComplete(p: Params)
    ensures PopulateParams(AsKindRequest(p)) == Success(p)
  {
    match p
    case NumbersParams(_, _, _, _) =>
    case FromArrayParams(_, _) =>
    case IDsParams(_, _, _) =>
    case GradualParams(_, _) =>
    case CustomParams(_) =>
    case StringsParams(_, _, _, _) =>
    case ArrayParams(_, _, _, _, _) =>
  }

  /** Populating is idempotent: a second `populateOptions` on the filled-in
      object leaves it as it is. */
  lemma PopulateIdempotent(mode: Mode, req: Request)
    requires PopulateOptions(mode, req).Success?
    ensures var c := PopulateOptions(mode, req).value;
            PopulateOptions(mode, AsRequest(c)) == Success(c)
  {
    var c := PopulateOptions(mode, req).value;
    assert mode == Generator ==> c.numberOfItems.Some?;
    PopulateFixesComplete(mode, c);
  }

  /** The defaults of the IDs generator give a minimum length above the maximum. */
  lemma IDsDefaultsAreInverted()
    ensures var r := PopulateParams(IDsRequest(None, None, None));
            r.Success? && r.value.minIDLength == 16 && r.value.maxIDLength == 8
            && r.value.minIDLength > r.value.maxIDLength
  {
  }
}

=== FILE: producers.dfy ===
/** The value producers: the `generateItem` of each generator class. Each one
    gets the populated options, the position `index` being filled and the
    draws `rand(0), rand(1), …` it makes, in order, for this call. */
module Producers {
  import opened Values
  import opened Draws
  import opened Options
  import opened Tables
  import opened Sorting

  // ---------------------------------------------------------------- numbers

  /** The numbers producer. Only the integer branch is computed; a number from
      the fractional branch, which may happen to be an integer, is the
      abstract `NonInteger`. */
  function NumbersItem(p: Params, raw: nat): (v: Value)
    requires p.NumbersParams?
    ensures p.onlyIntegers <==> v.Num?
    ensures v.Num? ==> InFloorRange(v.n - p.starting, p.ending - p.starting)
    ensures v.Num? && p.starting < p.ending ==> p.starting <= v.n < p.ending
  {
    if p.onlyIntegers then Num(p.starting + Floor(raw, p.ending - p.starting))
    else NonInteger(raw)
  }

  // -------------------------------------------------------- custom function

  /** The custom-function producer: the caller's function at `index`, with
      the draw `raw` standing for whatever randomness it uses. */
  function CustomItem(p: Params, index: nat, raw: nat): (v: Value)
    requires p.CustomParams?
    ensures v == p.customFunction(index, raw)
  {
    p.customFunction(index, raw)
  }

  // ------------------------------------------------------------- from array

  /** The from-array producer: in keep-order mode it cycles through the source,
      otherwise it picks any element; an empty source yields `undefined`. */
  function FromArrayItem(p: Params, index: nat, raw: nat): (v: Value)
    requires p.FromArrayParams?
    ensures |p.arrayOfItems| == 0 ==> v == Undefined
    ensures |p.arrayOfItems| > 0 ==> v in p.arrayOfItems
    ensures |p.arrayOfItems| > 0 && p.keepOrder ==> v == p.arrayOfItems[index % |p.arrayOfItems|]
  {
    var arr := p.arrayOfItems;
    if |arr| == 0 then Undefined
    else if p.keepOrder then arr[index % |arr|]
    else arr[Floor(raw, |arr|)]
  }

  // ---------------------------------------------------------- gradual value

  /** The gradual-value producer: a number, `starting` at position 0 and
      moving by `incrementValue` from one position to the next (see
      `GradualStep`). It uses no draw. */
  function GradualItem(p: Params, index: nat): (v: Value)
    requires p.GradualParams?
    ensures v.Num?
    ensures index == 0 ==> v == Num(p.starting)
  {
    Num(p.starting + index * p.incrementValue)
  }

  /** Consecutive gradual values differ by `incrementValue`. */
  lemma GradualStep(p: Params, index: nat)
    requires p.GradualParams?
    ensures GradualItem(p, index + 1).n == GradualItem(p, index).n + p.incrementValue
  {
  }

  // -------------------------------------------------------------------- IDs

  /** `Math.floor(Math.random() * (maxIDLength - minIDLength + 1) + minIDLength)` */
  function IDLength(p: Params, raw: nat): (len: nat)
    requires p.IDsParams?
    ensures InFloorRange(len - p.minIDLength, p.maxIDLength - p.minIDLength + 1)
  {
    p.minIDLength + Floor(raw, p.maxIDLength - p.minIDLength + 1)
  }

  /** Character `i` of an ID: a library drawn from `charLib` with
      `rand(1 + 2 * i)`, then a character of its table drawn with `rand(2 + 2 * i)`. */
  function IDChar(p: Params, rand: nat -> nat, i: nat): (c: char)
    requires p.IDsParams? && p.charLib != []
    ensures FromCharLibs(c, p.charLib)
  {
    var j := Floor(rand(1 + 2 * i), |p.charLib|);
    var randomLib := CharTable(p.charLib[j]);
    var c := randomLib[Floor(rand(2 + 2 * i), |randomLib|)];
    assert c in CharTable(p.charLib[j]);
    c
  }

  /** The first `n` characters of an ID. */
  function IDChars(p: Params, rand: nat -> nat, n: nat): (s: string)
    requires p.IDsParams? && (n == 0 || p.charLib != [])
    ensures |s| == n
    ensures forall c :: c in s ==> FromCharLibs(c, p.charLib)
  {
    if n == 0 then [] else IDChars(p, rand, n - 1) + [IDChar(p, rand, n - 1)]
  }

  /** What the IDs producer returns for the draws `rand`: `IDLength`
      characters, each from the table of a library drawn from `charLib`. With
      no library to draw from, reading the length of the undefined table throws. */
  function IDResult(p: Params, rand: nat -> nat): (r: Result<Value>)
    requires p.IDsParams?
    ensures r.Failure? <==> p.charLib == [] && IDLength(p, rand(0)) > 0
    ensures r.Failure? ==> r.error == TypeError
    ensures r.Success? ==> r.value.Text? && |r.value.s| == IDLength(p, rand(0))
    ensures r.Success? ==> forall c :: c in r.value.s ==> FromCharLibs(c, p.charLib)
  {
    var len := IDLength(p, rand(0));
    if p.charLib == [] && len > 0 then Failure(TypeError)
    else Success(Text(IDChars(p, rand, len)))
  }

  /** The IDs producer, `generateItem` of the IDs class. */
  method GenerateID(p: Params, rand: nat -> nat) returns (r: Result<Value>)
    requires p.IDsParams?
    ensures r == IDResult(p, rand)
  {
    var chars: string := [];
    var idLength := IDLength(p, rand(0));
    for i := 0 to idLength
      invariant i > 0 ==> p.charLib != []
      invariant chars == IDChars(p, rand, i)
    {
      if |p.charLib| == 0 {
        return Failure(TypeError);
      }
      var j := Floor(rand(1 + 2 * i), |p.charLib|);
      var randomLib := CharTable(p.charLib[j]);
      var c := randomLib[Floor(rand(2 + 2 * i), |randomLib|)];
      chars := chars + [c];
    }
    return Success(Text(chars));
  }

  // ---------------------------------------------------------------- strings

  /** Words joined by the separator, which stands only between two words. */
  function Join(ws: seq<string>, sep: string): string {
    if |ws| == 0 then ""
    else if |ws| == 1 then ws[0]
    else Join(ws[..|ws| - 1], sep) + sep + ws[|ws| - 1]
  }

  /** Appending a word adds the separator and the word, or just the word to
      an empty string. */
  lemma JoinSnoc(ws: seq<string>, w: string, sep: string)
    ensures Join(ws + [w], sep) == if ws == [] then w else Join(ws, sep) + sep + w
  {
    assert (ws + [w])[..|ws|] == ws;
  }

  /** `Math.floor(Math.random() * (maxNumberOfWords - minNumberOfWords + 1) + minNumberOfWords)` */
  function WordCount(p: Params, raw: nat): (n: nat)
    requires p.StringsParams?
    ensures InFloorRange(n - p.minNumberOfWords, p.maxNumberOfWords - p.minNumberOfWords + 1)
  {
    p.minNumberOfWords + Floor(raw, p.maxNumberOfWords - p.minNumberOfWords + 1)
  }

  /** Word `i` of a string: a library drawn from `lib` with `rand(1 + 2 * i)`,
      then a word of its list drawn with `rand(2 + 2 * i)`. */
  function StringWord(p: Params, words: WordTables, rand: nat -> nat, i: nat): (w: string)
    requires p.StringsParams? && p.lib != [] && WellSized(words)
    ensures FromWordLibs(w, words, p.lib)
  {
    var j := Floor(rand(1 + 2 * i), |p.lib|);
    var randomLib := WordTable(words, p.lib[j]);
    var w := randomLib[Floor(rand(2 + 2 * i), |randomLib|)];
    assert w in WordTable(words, p.lib[j]);
    w
  }

  /** The first `n` words of a string. */
  function StringWords(p: Params, words: WordTables, rand: nat -> nat, n: nat): (ws: seq<string>)
    requires p.StringsParams? && (n == 0 || p.lib != []) && WellSized(words)
    ensures |ws| == n
    ensures forall w :: w in ws ==> FromWordLibs(w, words, p.lib)
  {
    if n == 0 then [] else StringWords(p, words, rand, n - 1) + [StringWord(p, words, rand, n - 1)]
  }

  /** What the strings producer returns for the draws `rand`: `WordCount`
      words, each from a library drawn from `lib`, with the separator between
      consecutive words. With no library to draw from it throws. */
  function StringResult(p: Params, words: WordTables, rand: nat -> nat): (r: Result<Value>)
    requires p.StringsParams? && WellSized(words)
    ensures r.Failure? <==> p.lib == [] && WordCount(p, rand(0)) > 0
    ensures r.Failure? ==> r.error == TypeError
    ensures r.Success? ==> r.value == Text(Join(StringWords(p, words, rand, WordCount(p, rand(0))), p.separator))
  {
    var n := WordCount(p, rand(0));
    if p.lib == [] && n > 0 then Failure(TypeError)
    else Success(Text(Join(StringWords(p, words, rand, n), p.separator)))
  }

  /** The strings producer, `generateItem` of the strings class. */
  method GenerateString(p: Params, words: WordTables, rand: nat -> nat) returns (r: Result<Value>)
    requires p.StringsParams?
    requires WellSized(words)
    ensures r == StringResult(p, words, rand)
  {
    var item := "";
    var wordCount := WordCount(p, rand(0));
    for i := 0 to wordCount
      invariant i > 0 ==> p.lib != []
      invariant StringSoFar(p, words, rand, i, wordCount, item)
    {
      if |p.lib| == 0 {
        r := Failure(TypeError);
        return;
      }
      var j := Floor(rand(1 + 2 * i), |p.lib|);
      var randomLib := WordTable(words, p.lib[j]);
      var word := randomLib[Floor(rand(2 + 2 * i), |randomLib|)];
      assert word == StringWord(p, words, rand, i);
      StringStep(p, words, rand, i, wordCount, item);
      item := item + word;
      if i + 1 != wordCount {
        item := item + p.separator;
      }
    }
    assert item == Join(StringWords(p, words, rand, wordCount), p.separator);
    r := Success(Text(item));
  }

  /** After `i` of the `n` words, `item` holds them joined, followed by the
      separator when more words are to come. */
  ghost predicate StringSoFar(p: Params, words: WordTables, rand: nat -> nat, i: nat, n: nat, item: string)
    requires p.StringsParams? && (i == 0 || p.lib != []) && WellSized(words)
  {
    item == Join(StringWords(p, words, rand, i), p.separator) + (if 0 < i < n then p.separator else "")
  }

  /** One round of the strings loop appends word `i` and, unless it is the
      last, the separator. */
  lemma {:induction false} StringStep(p: Params, words: WordTables, rand: nat -> nat, i: nat, n: nat, item: string)
    requires p.StringsParams? && p.lib != [] && WellSized(words)
    requires i < n && StringSoFar(p, words, rand, i, n, item)
    ensures StringSoFar(p, words, rand, i + 1, n,
                        item + StringWord(p, words, rand, i) + (if i + 1 != n then p.separator else ""))
  {
    JoinSnoc(StringWords(p, words, rand, i), StringWord(p, words, rand, i), p.separator);
  }

  // ----------------------------------------------------------- array sample

  /** `Math.floor(Math.random() * (maxLengthOfArray - minLengthOfArray) + minLengthOfArray)` */
  function ResultLength(p: Params, raw: nat): (len: int)
    requires p.ArrayParams?
    ensures InFloorRange(len - p.minLengthOfArray, p.maxLengthOfArray - p.minLengthOfArray)
  {
    p.minLengthOfArray + Floor(raw, p.maxLengthOfArray - p.minLengthOfArray)
  }

  /** The largest length `ResultLength` can draw. */
  function MaxResultLength(p: Params): (m: int)
    requires p.ArrayParams?
    ensures forall raw: nat :: ResultLength(p, raw) <= m
    ensures exists raw: nat :: ResultLength(p, raw) == m
  {
    var span := p.maxLengthOfArray - p.minLengthOfArray;
    if span > 0 then
      ModSmall(span - 1, span);
      assert ResultLength(p, span - 1) == p.maxLengthOfArray - 1;
      p.maxLengthOfArray - 1
    else
      assert ResultLength(p, 0) == p.minLengthOfArray;
      p.minLengthOfArray
  }

  /** What the sampler draws from: the de-duplicated source, or, when that is
      empty, the `undefined` that indexing an empty array yields. */
  function Pool(p: Params): (pool: seq<Value>)
    requires p.ArrayParams?
    ensures Distinct(pool) && |pool| > 0
  {
    var u := Dedup(p.arrayOfItems);
    if |u| > 0 then u else [Undefined]
  }

  function NonNeg(n: int): nat {
    if n < 0 then 0 else n
  }

  /** What every sample satisfies: its elements come from the pool, without
      repetitions unless duplicates are allowed, and in source order in
      keep-order mode. */
  ghost predicate SampleShape(p: Params, xs: seq<Value>)
    requires p.ArrayParams?
  {
    && (forall x :: x in xs ==> x in Pool(p))
    && (!p.allowDuplicates ==> Distinct(xs))
    && (p.keepOrder ==> SortedByPosition(xs, Dedup(p.arrayOfItems)))
  }

  /** The first `n` picks of the sampler from `pool`, pick `i` made with the
      draw `rand(1 + i)`. When duplicates are not allowed, the source redraws a
      pick that is already in the sample until it gets a new one; the model
      draws among the items not yet picked, which yields the same samples, and
      gives `None` for the run that never returns because every item is
      already picked. */
  function Picks(pool: seq<Value>, allowDuplicates: bool, rand: nat -> nat, n: nat): (r: Option<seq<Value>>)
    requires Distinct(pool) && |pool| > 0
    ensures r.None? <==> !allowDuplicates && n > |pool|
    ensures r.Some? ==> |r.value| == n
    ensures r.Some? ==> forall x :: x in r.value ==> x in pool
    ensures r.Some? && !allowDuplicates ==> Distinct(r.value)
  {
    if n == 0 then Some([])
    else
      match Picks(pool, allowDuplicates, rand, n - 1)
      case None => None
      case Some(prev) =>
        if allowDuplicates then Some(prev + [pool[Floor(rand(n), |pool|)]])
        else
          var remaining := Without(pool, prev);
          if remaining == [] then
            CoveredBound(pool, prev);
            None
          else
            var x := remaining[Floor(rand(n), |remaining|)];
            FreshPick(pool, prev, x);
            Some(prev + [x])
  }

  /** What the array sampler returns for the draws `rand`: `ResultLength`
      picks from the pool, sorted by source position in keep-order mode. */
  function SampleResult(p: Params, rand: nat -> nat): (r: Result<Value>)
    requires p.ArrayParams?
    ensures r.Failure? <==> !p.allowDuplicates && ResultLength(p, rand(0)) > |Pool(p)|
    ensures r.Failure? ==> r.error == NeverReturns
    ensures r.Success? ==> r.value.List? && |r.value.elems| == NonNeg(ResultLength(p, rand(0)))
    ensures r.Success? ==> SampleShape(p, r.value.elems)
  {
    var uniqueItems := Dedup(p.arrayOfItems);
    match Picks(Pool(p), p.allowDuplicates, rand, NonNeg(ResultLength(p, rand(0))))
    case None => Failure(NeverReturns)
    case Some(sample) =>
      if p.keepOrder then
        SortKeepsElements(sample, uniqueItems);
        Success(List(SortByPosition(sample, uniqueItems)))
      else Success(List(sample))
  }

  /** The array sampler, `generateItem` of the array class. */
  method GenerateSample(p: Params, rand: nat -> nat) returns (r: Result<Value>)
    requires p.ArrayParams?
    ensures r == SampleResult(p, rand)
  {
    var resultLength := ResultLength(p, rand(0));
    var uniqueItems := Dedup(p.arrayOfItems);
    var itemArray := Pick(Pool(p), resultLength, p.allowDuplicates, rand);
    if itemArray.None? {
      return Failure(NeverReturns);
    }
    var sample := itemArray.value;
    if p.keepOrder {
      sample := SortByPosition(sample, uniqueItems);
    }
    r := Success(List(sample));
  }

  /** The drawing loop of the sampler: `resultLength` picks from `pool`. */
  method Pick(pool: seq<Value>, resultLength: int, allowDuplicates: bool, rand: nat -> nat)
    returns (r: Option<seq<Value>>)
    requires Distinct(pool) && |pool| > 0
    ensures r == Picks(pool, allowDuplicates, rand, NonNeg(resultLength))
  {
    var itemArray: seq<Value> := [];
    var i := 0;
    while i < resultLength
      invariant 0 <= i && (i <= resultLength || i == 0)
      invariant Picks(pool, allowDuplicates, rand, i) == Some(itemArray)
    {
      if allowDuplicates {
        itemArray := itemArray + [pool[Floor(rand(1 + i), |pool|)]];
      } else {
        var remaining := Without(pool, itemArray);
        if remaining == [] {
          assert Picks(pool, allowDuplicates, rand, i + 1).None?;
          return None;
        }
        var x := remaining[Floor(rand(1 + i), |remaining|)];
        itemArray := itemArray + [x];
      }
      i := i + 1;
    }
    r := Some(itemArray);
  }

  /** Adding an item not yet picked keeps the sample free of repetitions and
      within the pool. */
  lemma FreshPick(pool: seq<Value>, picked: seq<Value>, x: Value)
    requires Distinct(pool) && Distinct(picked)
    requires forall y :: y in picked ==> y in pool
    requires x in Without(pool, picked)
    ensures Distinct(picked + [x])
    ensures forall y :: y in picked + [x] ==> y in pool
    ensures |picked| + 1 <= |pool|
  {
    DistinctSubsetBound(picked + [x], pool);
  }

  /** A sequence without repetitions drawn from `b` is no longer than `b`'s set of values. */
  lemma DistinctSubsetBound(a: seq<Value>, b: seq<Value>)
    requires Distinct(a) && Distinct(b)
    requires forall x :: x in a ==> x in b
    ensures |a| <= |b|
  {
    DistinctCard(a);
    DistinctCard(b);
    assert Elements(a) <= Elements(b);
    SubsetCard(Elements(a), Elements(b));
  }

  /** A sequence that covers every element of `pool` is at least as long as `pool`. */
  lemma CoveredBound(pool: seq<Value>, a: seq<Value>)
    requires Distinct(pool)
    requires forall x :: x in pool ==> x in a
    ensures |pool| <= |a|
  {
    DistinctCard(pool);
    ElementsCard(a);
    assert Elements(pool) <= Elements(a);
    SubsetCard(Elements(pool), Elements(a));
  }

  lemma SubsetCard(s: set<Value>, t: set<Value>)
    requires s <= t
    ensures |s| <= |t|
  {
    assert t == s + (t - s);
  }

  // --------------------------------------------------------------- dispatch

  /** The values `generateItem(options, index)` can return for the populated
      options `p`, whatever the draws. */
  ghost predicate Producible(p: Params, index: nat, words: WordTables, v: Value) {
    match p
    case NumbersParams(s, e, onlyIntegers, _) =>
      if onlyIntegers then v.Num? && InFloorRange(v.n - s, e - s) else v.NonInteger?
    case FromArrayParams(arr, keepOrder) =>
      if |arr| == 0 then v == Undefined
      else if keepOrder then v == arr[index % |arr|]
      else v in arr
    case IDsParams(lo, hi, charLib) =>
      && v.Text?
      && InFloorRange(|v.s| - lo, hi - lo + 1)
      && (forall c :: c in v.s ==> FromCharLibs(c, charLib))
    case GradualParams(_, _) =>
      v == GradualItem(p, index)
    case CustomParams(f) =>
      exists raw: nat :: v == CustomItem(p, index, raw)
    case StringsParams(_, _, _, _) =>
      v.Text? && Sentence(p, words, v.s)
    case ArrayParams(_, lo, hi, _, _) =>
      && v.List?
      && SampleShape(p, v.elems)
      && exists raw: nat :: |v.elems| == NonNeg(ResultLength(p, raw))
  }

  /** A string the strings producer can build: a drawable number of words
      from the listed libraries, joined by the separator. */
  ghost predicate Sentence(p: Params, words: WordTables, s: string)
    requires p.StringsParams?
  {
    exists ws: seq<string> ::
      && InFloorRange(|ws| - p.minNumberOfWords, p.maxNumberOfWords - p.minNumberOfWords + 1)
      && AllFromWordLibs(ws, words, p.lib)
      && s == Join(ws, p.separator)
  }

  /** Every word of `ws` comes from one of the libraries `libs`. */
  predicate AllFromWordLibs(ws: seq<string>, words: WordTables, libs: seq<WordLib>) {
    forall w :: w in ws ==> FromWordLibs(w, words, libs)
  }

  /** The draws for which `generateItem` does not return a value: an empty
      `charLib` or `lib` with a positive length, or a sample longer than the
      distinct items when duplicates are not allowed. */
  predicate Fails(p: Params, raw: nat) {
    match p
    case IDsParams(_, _, charLib) => charLib == [] && IDLength(p, raw) > 0
    case StringsParams(_, _, _, lib) => lib == [] && WordCount(p, raw) > 0
    case ArrayParams(_, _, _, _, allowDuplicates) => !allowDuplicates && ResultLength(p, raw) > |Pool(p)|
    case _ => false
  }

  /** Options for which `generateItem` returns a value whatever the draws. */
  predicate ProducerSafe(p: Params) {
    match p
    case IDsParams(_, _, charLib) => charLib != []
    case StringsParams(_, _, _, lib) => lib != []
    case ArrayParams(_, _, _, _, allowDuplicates) => allowDuplicates || MaxResultLength(p) <= |Pool(p)|
    case _ => true
  }

  /** What `generateItem(options, index)` returns for the draws `rand`, by the
      class the options belong to. */
  function ItemResult(p: Params, index: nat, words: WordTables, rand: nat -> nat): (r: Result<Value>)
    requires WellSized(words)
    ensures r.Success? ==> Producible(p, index, words, r.value)
    ensures r.Failure? <==> Fails(p, rand(0))
    ensures r.Failure? ==> r.error == (if p.ArrayParams? then NeverReturns else TypeError)
    ensures ProducerSafe(p) ==> r.Success?
  {
    match p
    case NumbersParams(_, _, _, _) => Success(NumbersItem(p, rand(0)))
    case FromArrayParams(_, _) => Success(FromArrayItem(p, index, rand(0)))
    case IDsParams(_, _, _) => IDResult(p, rand)
    case GradualParams(_, _) => Success(GradualItem(p, index))
    case CustomParams(_) => Success(CustomItem(p, index, rand(0)))
    case StringsParams(_, _, _, _) =>
      StringProducible(p, index, words, rand);
      StringResult(p, words, rand)
    case ArrayParams(_, _, _, _, _) =>
      SampleProducible(p, index, words, rand);
      SampleResult(p, rand)
  }

  lemma {:induction false} StringProducible(p: Params, index: nat, words: WordTables, rand: nat -> nat)
    requires p.StringsParams? && WellSized(words)
    ensures StringResult(p, words, rand).Success? ==> Producible(p, index, words, StringResult(p, words, rand).value)
  {
    if StringResult(p, words, rand).Success? {
      var v := StringResult(p, words, rand).value;
      var ws := StringWords(p, words, rand, WordCount(p, rand(0)));
      assert InFloorRange(|ws| - p.minNumberOfWords, p.maxNumberOfWords - p.minNumberOfWords + 1);
      assert AllFromWordLibs(ws, words, p.lib);
      assert v.Text? && v.s == Join(ws, p.separator);
      assert Sentence(p, words, v.s);
    }
  }

  lemma {:induction false} SampleProducible(p: Params, index: nat, words: WordTables, rand: nat -> nat)
    requires p.ArrayParams?
    ensures SampleResult(p, rand).Success? ==> Producible(p, index, words, SampleResult(p, rand).value)
  {
    if SampleResult(p, rand).Success? {
      assert |SampleResult(p, rand).value.elems| == NonNeg(ResultLength(p, rand(0)));
    }
  }

  /** `generateItem(options, index)` of the class the options belong to. */
  method GenerateItem(p: Params, index: nat, words: WordTables, rand: nat -> nat) returns (r: Result<Value>)
    requires WellSized(words)
    ensures r == ItemResult(p, index, words, rand)
  {
    match p
    case NumbersParams(_, _, _, _) =>
      r := Success(NumbersItem(p, rand(0)));
    case FromArrayParams(_, _) =>
      r := Success(FromArrayItem(p, index, rand(0)));
    case IDsParams(_, _, _) =>
      r := GenerateID(p, rand);
    case GradualParams(_, _) =>
      r := Success(GradualItem(p, index));
    case CustomParams(_) =>
      r := Success(CustomItem(p, index, rand(0)));
    case StringsParams(_, _, _, _) =>
      r := GenerateString(p, words, rand);
    case ArrayParams(_, _, _, _, _) =>
      r := GenerateSample(p, rand);
  }

  // ------------------------------------------------------------ properties

  /** Integer-mode numbers lie in `[starting, ending)`, and every integer there can occur. */
  lemma NumbersInRange(p: Params, index: nat, words: WordTables, v: Value)
    requires p.NumbersParams? && p.onlyIntegers && p.starting < p.ending
    ensures Producible(p, index, words, v) <==> v.Num? && p.starting <= v.n < p.ending
  {
  }

  /** In keep-order mode the from-array producer yields `arrayOfItems[index % length]`. */
  lemma KeepOrderCycles(p: Params, index: nat, words: WordTables, v: Value)
    requires p.FromArrayParams? && p.keepOrder && |p.arrayOfItems| > 0
    ensures Producible(p, index, words, v) <==> v == p.arrayOfItems[index % |p.arrayOfItems|]
  {
  }

  /** An ID has between `minIDLength` and `maxIDLength` characters; with the
      bounds inverted, as the defaults 16 and 8 are, it has between
      `maxIDLength + 1` and `minIDLength`. */
  lemma IDLengthBounds(p: Params, index: nat, words: WordTables, v: Value)
    requires p.IDsParams? && Producible(p, index, words, v)
    ensures p.minIDLength <= p.maxIDLength ==> p.minIDLength <= |v.s| <= p.maxIDLength
    ensures p.maxIDLength < p.minIDLength ==> p.maxIDLength + 1 <= |v.s| <= p.minIDLength
  {
    InclusiveDrawBounds(p.minIDLength, p.maxIDLength, |v.s|);
  }

  /** A string has between `minNumberOfWords` and `maxNumberOfWords` words;
      with the bounds inverted, between `maxNumberOfWords + 1` and
      `minNumberOfWords`. */
  lemma {:induction false} WordCountBounds(p: Params, index: nat, words: WordTables, v: Value)
    requires p.StringsParams? && Producible(p, index, words, v)
    ensures exists ws: seq<string> ::
              && v.s == Join(ws, p.separator)
              && AllFromWordLibs(ws, words, p.lib)
              && (p.minNumberOfWords <= p.maxNumberOfWords ==>
                    p.minNumberOfWords <= |ws| <= p.maxNumberOfWords)
              && (p.maxNumberOfWords < p.minNumberOfWords ==>
                    p.maxNumberOfWords + 1 <= |ws| <= p.minNumberOfWords)
  {
    assert Sentence(p, words, v.s);
    var ws: seq<string> :|
      && InFloorRange(|ws| - p.minNumberOfWords, p.maxNumberOfWords - p.minNumberOfWords + 1)
      && AllFromWordLibs(ws, words, p.lib)
      && v.s == Join(ws, p.separator);
    SentenceBounds(p, words, v.s, ws);
  }

  lemma SentenceBounds(p: Params, words: WordTables, s: string, ws: seq<string>)
    requires p.StringsParams?
    requires InFloorRange(|ws| - p.minNumberOfWords, p.maxNumberOfWords - p.minNumberOfWords + 1)
    requires AllFromWordLibs(ws, words, p.lib) && s == Join(ws, p.separator)
    ensures exists ws': seq<string> ::
              && s == Join(ws', p.separator)
              && AllFromWordLibs(ws', words, p.lib)
              && (p.minNumberOfWords <= p.maxNumberOfWords ==>
                    p.minNumberOfWords <= |ws'| <= p.maxNumberOfWords)
              && (p.maxNumberOfWords < p.minNumberOfWords ==>
                    p.maxNumberOfWords + 1 <= |ws'| <= p.minNumberOfWords)
  {
    InclusiveDrawBounds(p.minNumberOfWords, p.maxNumberOfWords, |ws|);
  }

  /** A sample is never longer than the largest length the sampler draws. */
  lemma SampleLengthBound(p: Params, index: nat, words: WordTables, v: Value)
    requires p.ArrayParams? && Producible(p, index, words, v)
    ensures |v.elems| <= NonNeg(MaxResultLength(p))
    ensures p.minLengthOfArray <= p.maxLengthOfArray ==> NonNeg(p.minLengthOfArray) <= |v.elems|
  {
    var raw: nat :| |v.elems| == NonNeg(ResultLength(p, raw));
  }

  /** In keep-order mode two different items of a sample appear in the order
      of their first occurrence in `arrayOfItems`. */
  lemma {:induction false} SampleFollowsSource(p: Params, index: nat, words: WordTables, v: Value, i: nat, j: nat)
    requires p.ArrayParams? && p.keepOrder && |p.arrayOfItems| > 0
    requires Producible(p, index, words, v)
    requires i < j < |v.elems| && v.elems[i] != v.elems[j]
    ensures IndexOf(p.arrayOfItems, v.elems[i]) < IndexOf(p.arrayOfItems, v.elems[j])
  {
    var u := Dedup(p.arrayOfItems);
    var a, b := v.elems[i], v.elems[j];
    assert p.arrayOfItems[0] in u;
    assert Pool(p) == u;
    assert a in u && b in u;
    assert IndexOf(u, a) <= IndexOf(u, b);
    assert IndexOf(u, a) != IndexOf(u, b) by {
      assert u[IndexOf(u, a)] == a && u[IndexOf(u, b)] == b;
    }
    DedupOrderMatchesSource(p.arrayOfItems, a, b);
  }
}

=== FILE: scenarios.dfy ===
/** Concrete runs of the public entry points, each `randomX(options)` being
    `generateArray(populateOptions("generator", options))`. Each holds for
    every sequence of draws. */
module Scenarios {
  import opened Values
  import opened Draws
  import opened Options
  import opened Tables
  import opened Producers
  import opened Feasibility
  import opened Generation
  import opened Composer

  /** `randomObjects({ key1: 5 }, 15)`: fifteen objects, each `{ key1: 5 }`. */
  method StaticObjects(words: WordTables, tapes: nat -> Tape) returns (rows: seq<Row>)
    requires WellSized(words)
    ensures |rows| == 15
    ensures forall i :: 0 <= i < |rows| ==> rows[i] == [("key1", Num(5))]
  {
    var blueprint := [("key1", Static(Num(5)))];
    assert Distinct(Keys(blueprint)) by {
      assert blueprint[..0] == [];
      assert Keys(blueprint) == ["key1"];
    }
    assert Runnable(blueprint, 15, false) by {
      assert !Throws(Num(5));
    }
    var r, reported, fields := RandomObjects(blueprint, 15, false, words, tapes);
    rows := r.value;
    forall i | 0 <= i < |rows| ensures rows[i] == [("key1", Num(5))] {
      StaticCopied(blueprint, rows, fields, 15, false, words, tapes, i, 0);
    }
  }

  /** `randomNumbers` with a `customMap` that always answers "55", fifteen
      items, `unique` set and a re-create limit of 10: the run completes with
      fifteen "55"s, and `unique` has been dropped on the way. The first
      attempt fills position 0; position 1 rejects ten attempts, after which
      the eleventh goes through unchecked, and every later position takes its
      first attempt. */
  method NumbersRecreateLimit(words: WordTables, tape: Tape)
    returns (items: seq<Value>, uniqueAfter: bool, ghost attempts: seq<nat>)
    requires WellSized(words)
    ensures items == seq(15, _ => Text("55"))
    ensures !uniqueAfter
    ensures |attempts| == 15 && attempts[0] == 0
    ensures forall i :: 1 <= i < 15 ==> attempts[i] == i + 10
  {
    var req := Request(Some(15), Some(true), Some(Limit(10)), Some(false),
                       Some((item: Value, index: nat) => Text("55")), None,
                       NumbersRequest(Some(5), Some(25), Some(false), Some(5)));
    var options := PopulateOptions(Generator, req).value;
    var run, raw, rows, strict := GenerateArray(options, words, tape);
    items := run.items;
    uniqueAfter := run.options.unique;
    attempts := rows;
    ghost var c := Checked(options);
    assert c.unique by {
      assert Pow(10, 5) == 100000;
    }
    assert items[0] == items[1];
    assert PositionExplained(c, words, tape, items, raw, rows, strict, 0);
    assert !RejectedAt(c, words, tape, 0, items[..0], 0);
    assert rows[0] == 0;
    assert items[1] in items[..1];
    assert !Admitted(c, items, 1);
    assert strict == 1;
    assert PositionExplained(c, words, tape, items, raw, rows, strict, 1);
    for i := 2 to 15
      invariant forall j :: 1 <= j < i ==> rows[j] == j + 10
    {
      assert PositionExplained(c, words, tape, items, raw, rows, strict, i);
    }
  }

  /** `randomNumbers` in integer mode between 5 and 25, fifteen unique items:
      fifteen integers in `[5, 25)`, pairwise distinct unless the re-create
      limit dropped `unique`. */
  method NumbersInRange(words: WordTables, tape: Tape) returns (items: seq<Value>, uniqueAfter: bool)
    requires WellSized(words)
    ensures |items| == 15
    ensures forall i :: 0 <= i < |items| ==> items[i].Num? && 5 <= items[i].n < 25
    ensures uniqueAfter ==> Distinct(items)
  {
    var req := Request(Some(15), Some(true), Some(Limit(10)), Some(false), None, None,
                       NumbersRequest(Some(5), Some(25), Some(true), Some(5)));
    var options := PopulateOptions(Generator, req).value;
    var run, raw, rows, strict := GenerateArray(options, words, tape);
    items := run.items;
    uniqueAfter := run.options.unique;
  }

  /** `gradualValue({ starting, incrementValue, numberOfItems: n, unique, reCreateLimit })`
      is `starting, starting + incrementValue, …`, `n` items, whatever
      `unique` and the limit are: each position has one candidate, so a
      rejected one comes back until the limit lets it through. */
  method GradualSteps(starting: int, incrementValue: int, n: nat, unique: bool, limit: int,
                      words: WordTables, tape: Tape)
    returns (items: seq<Value>)
    requires WellSized(words)
    ensures items == seq(n, i => Num(starting + i * incrementValue))
  {
    var req := Request(Some(n), Some(unique), Some(Limit(limit)), None, None, None,
                       GradualRequest(Some(starting), Some(incrementValue)));
    var options := PopulateOptions(Generator, req).value;
    var run, raw, rows, strict := GenerateArray(options, words, tape);
    items := run.items;
    forall i | 0 <= i < n ensures items[i] == Num(starting + i * incrementValue) {
      assert Producible(Checked(options).params, i, words, raw[i]);
    }
  }

  /** `randomFromArray({ arrayOfItems, keepOrder: true, numberOfItems: n, unique, reCreateLimit })`
      with `n` at most the source's length is the first `n` items of the
      source, whatever `unique` and the limit are. */
  method FromArrayKeepOrder(arrayOfItems: seq<Value>, n: nat, unique: bool, limit: int,
                            words: WordTables, tape: Tape)
    returns (items: seq<Value>)
    requires n <= |arrayOfItems|
    requires WellSized(words)
    ensures items == arrayOfItems[..n]
  {
    var req := Request(Some(n), Some(unique), Some(Limit(limit)), None, None, None,
                       FromArrayRequest(Some(arrayOfItems), Some(true)));
    var options := PopulateOptions(Generator, req).value;
    var run, raw, rows, strict := GenerateArray(options, words, tape);
    items := run.items;
    forall i | 0 <= i < n ensures items[i] == arrayOfItems[i] {
      assert Producible(Checked(options).params, i, words, raw[i]);
      ModSmall(i, |arrayOfItems|);
    }
  }

  /** `randomIDs` with lengths 5 to 20 over letters, digits and symbols,
      fifteen unique items: fifteen IDs of 5 to 20 characters from those
      tables, pairwise distinct unless the re-create limit dropped `unique`. */
  method IDsWithinLengths(words: WordTables, tape: Tape) returns (items: seq<Value>, uniqueAfter: bool)
    requires WellSized(words)
    ensures |items| == 15
    ensures forall i :: 0 <= i < |items| ==>
              && items[i].Text? && 5 <= |items[i].s| <= 20
              && forall c :: c in items[i].s ==> FromCharLibs(c, [Letter, Number, Symbol])
    ensures uniqueAfter ==> Distinct(items)
  {
    var req := Request(Some(15), Some(true), Some(Limit(10)), Some(false), None, None,
                       IDsRequest(Some(5), Some(20), Some([Letter, Number, Symbol])));
    var options := PopulateOptions(Generator, req).value;
    var run, raw, rows, strict := GenerateArray(options, words, tape);
    items := run.items;
    uniqueAfter := run.options.unique;
    forall i | 0 <= i < |items|
      ensures && items[i].Text? && 5 <= |items[i].s| <= 20
              && forall c :: c in items[i].s ==> FromCharLibs(c, [Letter, Number, Symbol])
    {
      IDLengthBounds(Checked(options).params, i, words, raw[i]);
    }
  }

  /** `randomNumbers()` with no options returns the default hundred items. */
  method NumbersDefaultCount(words: WordTables, tape: Tape) returns (items: seq<Value>)
    requires WellSized(words)
    ensures |items| == DefaultNumberOfItems
  {
    var req := Request(None, None, None, None, None, None, NumbersRequest(None, None, None, None));
    var options := PopulateOptions(Generator, req).value;
    var run, raw, rows, strict := GenerateArray(options, words, tape);
    items := run.items;
  }
}

=== FILE: sorting.dfy ===
/** `itemArray.sort((a, b) => uniqueItems.indexOf(a) - uniqueItems.indexOf(b))`:
    the keep-order step of the array sampler, a stable sort by position in the
    de-duplicated source. */
module Sorting {
  import opened Values

  /** Keys never decrease along `r`. */
  predicate SortedByPosition(r: seq<Value>, u: seq<Value>) {
    forall i, j :: 0 <= i < j < |r| ==> IndexOf(u, r[i]) <= IndexOf(u, r[j])
  }

  /** Places `x` before the first element whose key is not smaller. */
  function Insert(x: Value, ys: seq<Value>, u: seq<Value>): (r: seq<Value>)
    requires SortedByPosition(ys, u)
    ensures multiset(r) == multiset(ys) + multiset{x}
    ensures SortedByPosition(r, u)
  {
    if ys == [] || IndexOf(u, x) <= IndexOf(u, ys[0]) then
      InsertFirst(x, ys, u);
      [x] + ys
    else
      var rest := Insert(x, ys[1..], u);
      InsertLater(x, ys, rest, u);
      [ys[0]] + rest
  }

  /** A head whose key is not above any key of a sorted tail keeps it sorted. */
  lemma {:induction false} ConsSorted(h: Value, t: seq<Value>, u: seq<Value>)
    requires SortedByPosition(t, u)
    requires forall k :: 0 <= k < |t| ==> IndexOf(u, h) <= IndexOf(u, t[k])
    ensures SortedByPosition([h] + t, u)
  {
    var r := [h] + t;
    forall i, j | 0 <= i < j < |r| ensures IndexOf(u, r[i]) <= IndexOf(u, r[j]) {
      assert r[j] == t[j - 1];
      if i > 0 {
        assert r[i] == t[i - 1];
      }
    }
  }

  /** `x` goes in front when its key is not above the head's. */
  lemma {:induction false} InsertFirst(x: Value, ys: seq<Value>, u: seq<Value>)
    requires SortedByPosition(ys, u)
    requires ys == [] || IndexOf(u, x) <= IndexOf(u, ys[0])
    ensures SortedByPosition([x] + ys, u)
  {
    forall k | 0 <= k < |ys| ensures IndexOf(u, x) <= IndexOf(u, ys[k]) {
      if k > 0 {
        assert IndexOf(u, ys[0]) <= IndexOf(u, ys[k]);
      }
    }
    ConsSorted(x, ys, u);
  }

  /** When `x` goes after the head of `ys`, the head followed by `x` inserted
      into the tail is sorted and holds the same elements. */
  lemma {:induction false} InsertLater(x: Value, ys: seq<Value>, rest: seq<Value>, u: seq<Value>)
    requires ys != [] && SortedByPosition(ys, u)
    requires IndexOf(u, ys[0]) < IndexOf(u, x)
    requires multiset(rest) == multiset(ys[1..]) + multiset{x}
    requires SortedByPosition(rest, u)
    ensures multiset([ys[0]] + rest) == multiset(ys) + multiset{x}
    ensures SortedByPosition([ys[0]] + rest, u)
  {
    assert ys == [ys[0]] + ys[1..];
    HeadStaysFirst(x, ys, rest, u);
    ConsSorted(ys[0], rest, u);
  }

  /** When `x` goes after the head of `ys`, the head keeps the smallest key. */
  lemma HeadStaysFirst(x: Value, ys: seq<Value>, rest: seq<Value>, u: seq<Value>)
    requires ys != [] && SortedByPosition(ys, u)
    requires IndexOf(u, ys[0]) < IndexOf(u, x)
    requires multiset(rest) == multiset(ys[1..]) + multiset{x}
    ensures forall k :: 0 <= k < |rest| ==> IndexOf(u, ys[0]) <= IndexOf(u, rest[k])
  {
    forall k | 0 <= k < |rest| ensures IndexOf(u, ys[0]) <= IndexOf(u, rest[k]) {
      assert rest[k] in multiset(rest);
      if rest[k] != x {
        assert rest[k] in multiset(ys[1..]);
        var m :| 0 <= m < |ys[1..]| && ys[1..][m] == rest[k];
        assert ys[m + 1] == rest[k];
      }
    }
  }

  /** The stable sort of `xs` by position in `u`: a rearrangement of `xs`
      whose keys never decrease. */
  function SortByPosition(xs: seq<Value>, u: seq<Value>): (r: seq<Value>)
    ensures multiset(r) == multiset(xs)
    ensures SortedByPosition(r, u)
  {
    if xs == [] then []
    else
      assert xs == [xs[0]] + xs[1..];
      Insert(xs[0], SortByPosition(xs[1..], u), u)
  }

  /** The keep-order step loses and invents no element, keeps the length, and keeps a sample
      without repetitions free of repetitions. */
  lemma SortKeepsElements(xs: seq<Value>, u: seq<Value>)
    ensures forall x :: x in SortByPosition(xs, u) <==> x in xs
    ensures |SortByPosition(xs, u)| == |xs|
    ensures Distinct(xs) ==> Distinct(SortByPosition(xs, u))
  {
    var r := SortByPosition(xs, u);
    assert |r| == |multiset(r)| == |multiset(xs)| == |xs|;
    forall x ensures x in r <==> x in xs {
      assert x in r <==> x in multiset(r);
      assert x in xs <==> x in multiset(xs);
    }
    if Distinct(xs) {
      DistinctPermutation(xs, r);
    }
  }

  /** Over a source without repetitions, the sorted sample lists the chosen
      items in source order. */
  lemma SortedFollowsSource(xs: seq<Value>, u: seq<Value>, i: nat, j: nat)
    requires Distinct(u)
    requires forall x :: x in xs ==> x in u
    requires i < j < |SortByPosition(xs, u)|
    ensures var r := SortByPosition(xs, u);
            r[i] != r[j] ==> IndexOf(u, r[i]) < IndexOf(u, r[j])
  {
    var r := SortByPosition(xs, u);
    SortKeepsElements(xs, u);
    assert r[i] in r && r[j] in r;
    if r[i] != r[j] && IndexOf(u, r[i]) == IndexOf(u, r[j]) {
      assert false;
    }
  }
}

=== FILE: tables.dfy ===
/** The libraries the producers draw from: the three character tables of the
    IDs generator, written out as in the source, and the four imported word
    lists of the strings generator, which are external tables and enter the
    model as a parameter of known sizes. */
module Tables {
  import opened Options

  const Digits: string := "0123456789"
  const Letters: string := "abcdefghijklmnopqrstuvwxyzABCDEFGHIJKLMNOPQRSTUVWXYZ"
  const Symbols: string := "~`!@#$%^&*()_-+={[}]|\\:;\"'<,>.?/"

  /** `charLibObject[lib]` */
  function CharTable(lib: CharLib): (t: string)
    ensures |t| > 0
  {
    match lib
    case Number => Digits
    case Letter => Letters
    case Symbol => Symbols
  }

  /** A character an ID over the libraries `libs` may contain: one of the
      table of some library listed. */
  predicate FromCharLibs(c: char, libs: seq<CharLib>) {
    exists j :: 0 <= j < |libs| && c in CharTable(libs[j])
  }

  /** The imported lists `listOfNames`, `listOfAdjectives`, `listOfCountries`, `listOfNouns`. */
  datatype WordTables = WordTables(name: seq<string>, adjective: seq<string>,
                                   country: seq<string>, noun: seq<string>)

  /** The sizes the source records next to the imports. */
  predicate WellSized(t: WordTables) {
    |t.name| == 6779 && |t.adjective| == 1314 && |t.country| == 193 && |t.noun| == 1000
  }

  /** `stringLib[lib]` */
  function WordTable(t: WordTables, lib: WordLib): seq<string> {
    match lib
    case Name => t.name
    case Adjective => t.adjective
    case Country => t.country
    case Noun => t.noun
  }

  /** A word a string over the libraries `libs` may contain. */
  predicate FromWordLibs(w: string, t: WordTables, libs: seq<WordLib>) {
    exists j :: 0 <= j < |libs| && w in WordTable(t, libs[j])
  }
}

=== FILE: values.dfy ===
/** The JavaScript values the engine passes around, and the few operations on
    sequences of them that the engine relies on: `includes`, `[...new Set(xs)]`
    and `indexOf`. */
module Values {

  datatype Option<+T> = None | Some(value: T)

  /** A JavaScript value, as far as the engine distinguishes values.
      `NonInteger` stands for a number produced by the fractional branch of the
      numbers producer, whose digits this model does not compute; `draw`
      identifies the random draw it came from. Despite the name, the source's
      fractional branch can yield an integer (no digits kept after the point,
      or only zeros kept); the model keeps such a number abstract all the same. */
  datatype Value =
    | Undefined
    | Null
    | Num(n: int)
    | NonInteger(draw: nat)
    | Text(s: string)
    | List(elems: seq<Value>)
    | Object(entries: seq<(string, Value)>)

  /** What a call can end in besides a value: an exception, or a loop that never returns. */
  datatype Error = Thrown(message: string) | TypeError | NeverReturns

  datatype Result<+T> = Success(value: T) | Failure(error: Error)

  /** No element occurs twice. */
  predicate Distinct<T(==)>(s: seq<T>) {
    forall i, j :: 0 <= i < j < |s| ==> s[i] != s[j]
  }

  /** The set of elements of a sequence. */
  ghost function Elements<T>(s: seq<T>): set<T> {
    set x | x in s
  }

  /** `[...new Set(xs)]`: the distinct elements of `xs`, each at the place of
      its first occurrence. */
  function Dedup(xs: seq<Value>): (u: seq<Value>)
    ensures Distinct(u)
    ensures forall x :: x in u <==> x in xs
    ensures |u| <= |xs|
  {
    if xs == [] then []
    else
      var d := Dedup(xs[..|xs| - 1]);
      var x := xs[|xs| - 1];
      assert xs == xs[..|xs| - 1] + [x];
      if x in d then d else d + [x]
  }

  /** `xs.indexOf(x)`: the first position of `x`, or -1. */
  function IndexOf(xs: seq<Value>, x: Value): (k: int)
    ensures -1 <= k < |xs|
    ensures k == -1 <==> x !in xs
    ensures 0 <= k ==> xs[k] == x && x !in xs[..k]
  {
    if xs == [] then -1
    else if xs[0] == x then 0
    else
      var k := IndexOf(xs[1..], x);
      assert k >= 0 ==> xs[1..][..k] == xs[1..k + 1];
      if k == -1 then -1 else k + 1
  }

  /** The values of `u` appear in the order of their first occurrence in `xs`. */
  predicate FirstOccurrenceOrder(u: seq<Value>, xs: seq<Value>) {
    forall i, j :: 0 <= i < j < |u| ==> IndexOf(xs, u[i]) < IndexOf(xs, u[j])
  }

  /** `[...new Set(xs)]` lists the values in the order of their first
      occurrence in `xs`. */
  lemma {:induction false} DedupKeepsFirstOrder(xs: seq<Value>)
    ensures FirstOccurrenceOrder(Dedup(xs), xs)
  {
    if xs != [] {
      var p := xs[..|xs| - 1];
      var x := xs[|xs| - 1];
      var d := Dedup(p);
      var u := Dedup(xs);
      assert xs == p + [x];
      assert u == if x in d then d else d + [x];
      DedupKeepsFirstOrder(p);
      assert FirstOccurrenceOrder(d, p);
      forall i, j | 0 <= i < j < |u| ensures IndexOf(xs, u[i]) < IndexOf(xs, u[j]) {
        assert u[i] == d[i] && d[i] in p;
        IndexOfAppend(p, x, d[i]);
        if j < |d| {
          assert u[j] == d[j] && d[j] in p;
          IndexOfAppend(p, x, d[j]);
          assert IndexOf(p, d[i]) < IndexOf(p, d[j]);
        } else {
          assert u[j] == x && x !in p;
          IndexOfLast(p, x);
          assert IndexOf(p, d[i]) < |p|;
        }
      }
    }
  }

  /** Two values of the source keep their relative order in
      `[...new Set(xs)]`: positions there compare as first occurrences do. */
  lemma {:induction false} DedupOrderMatchesSource(xs: seq<Value>, a: Value, b: Value)
    requires a in xs && b in xs
    ensures IndexOf(Dedup(xs), a) < IndexOf(Dedup(xs), b) <==> IndexOf(xs, a) < IndexOf(xs, b)
  {
    var u := Dedup(xs);
    var i, j := IndexOf(u, a), IndexOf(u, b);
    DedupKeepsFirstOrder(xs);
    assert FirstOccurrenceOrder(u, xs);
    assert a in u && b in u;
    assert u[i] == a && u[j] == b;
    if i < j {
      assert IndexOf(xs, u[i]) < IndexOf(xs, u[j]);
    } else if j < i {
      assert IndexOf(xs, u[j]) < IndexOf(xs, u[i]);
    }
  }

  /** Appending keeps the first position of a value already present. */
  lemma {:induction false} IndexOfAppend(p: seq<Value>, x: Value, y: Value)
    requires y in p
    ensures IndexOf(p + [x], y) == IndexOf(p, y)
  {
    if p[0] != y {
      assert (p + [x])[1..] == p[1..] + [x];
      IndexOfAppend(p[1..], x, y);
    }
  }

  /** A value first appended last is found at the end. */
  lemma {:induction false} IndexOfLast(p: seq<Value>, x: Value)
    requires x !in p
    ensures IndexOf(p + [x], x) == |p|
  {
    assert (p + [x])[|p|] == x;
  }

  /** The elements of `pool` that do not occur in `chosen`, in pool order. */
  function Without(pool: seq<Value>, chosen: seq<Value>): (r: seq<Value>)
    ensures forall x :: x in r <==> x in pool && x !in chosen
    ensures Distinct(pool) ==> Distinct(r)
  {
    if pool == [] then []
    else
      var rest := Without(pool[1..], chosen);
      assert forall x :: x in pool <==> x == pool[0] || x in pool[1..];
      if pool[0] in chosen then rest else [pool[0]] + rest
  }

  /** A sequence without repetitions has as many elements as its set. */
  lemma {:induction false} DistinctCard<T>(s: seq<T>)
    requires Distinct(s)
    ensures |Elements(s)| == |s|
  {
    if s != [] {
      var t := s[..|s| - 1];
      var x := s[|s| - 1];
      assert s == t + [x];
      DistinctCard(t);
      assert Elements(s) == Elements(t) + {x};
      assert x !in Elements(t);
    }
  }

  /** A set has at most as many elements as any sequence that lists it. */
  lemma {:induction false} ElementsCard<T>(s: seq<T>)
    ensures |Elements(s)| <= |s|
  {
    if s != [] {
      var t := s[..|s| - 1];
      assert s == t + [s[|s| - 1]];
      ElementsCard(t);
      assert Elements(s) == Elements(t) + {s[|s| - 1]};
    }
  }

  /** `[...new Set(xs)].length` counts the distinct values of `xs`. */
  lemma DedupCountsDistinctValues(xs: seq<Value>)
    ensures |Dedup(xs)| == |Elements(xs)|
  {
    DistinctCard(Dedup(xs));
    assert Elements(Dedup(xs)) == Elements(xs);
  }

  /** A rearrangement of a sequence without repetitions has none either. */
  lemma {:induction false} DistinctPermutation(a: seq<Value>, b: seq<Value>)
    requires multiset(a) == multiset(b)
    requires Distinct(a)
    ensures Distinct(b)
  {
    forall i, j | 0 <= i < j < |b|
      ensures b[i] != b[j]
    {
      if b[i] == b[j] {
        var x := b[i];
        assert b == b[..i] + [x] + b[i + 1..j] + [x] + b[j + 1..];
        assert multiset(b)[x] >= 2;
        DistinctAtMostOnce(a, x);
        assert false;
      }
    }
  }

  /** In a sequence without repetitions every value occurs at most once. */
  lemma {:induction false} DistinctAtMostOnce(a: seq<Value>, x: Value)
    requires Distinct(a)
    ensures multiset(a)[x] <= 1
  {
    if a != [] {
      var t := a[..|a| - 1];
      assert a == t + [a[|a| - 1]];
      DistinctAtMostOnce(t, x);
      if a[|a| - 1] == x {
        assert x !in t;
        assert multiset(t)[x] == 0;
      }
    }
  }
}
